=== FILE: README.md ===
# Clothes organiser: a Dafny model of the resource rules and the list logic

The clothes organiser keeps a list of clothing items, each with a name, a
free-form category label, a laundry status (Washed, Unwashed or
Lost/Unused) and an optional photo. An Express server stores items and
categories in MongoDB and keeps photos in a local `uploads` directory. A
React page shows the list with status tabs and a search box, and edits
it.

This project models the two pieces of sequential logic in that system:

* **Server resource rules** (`server/index.js`). Every route is a pure
  function from a store and a request to a response and a new store.
  - The store (module `Store`) holds the Item and Category collections,
    a source of fresh ids, and the set of regular files in the upload
    directory.
  - The routes cover listing, creating, updating and deleting items and
    categories, and uploading an image.
  - Item deletion includes the best-effort removal of the item's image
    file. Its path logic is modelled on an abstract `Platform`: the URL
    parser and `path.basename`/`path.extname`.
  - The modules are `Items`, `Categories` and `Uploads`.
  - `ServerProperties` relates several routes: idempotent category
    creation, create/delete round trips, and the image file's lifecycle
    from upload to item deletion.
* **Client list logic** (`src/pages/ClothesOrganizer.jsx`).
  - Module `Search`: the accent- and case-insensitive multi-word search
    and the status tabs.
  - Module `Organizer`: the handlers that change the page state.
    - the save guard and the request body it sends, including the choice
      of image URL;
    - saving, and removing an item by id;
    - the local category list: adding with a set, deleting with a floor
      of one, and moving the draft item off a deleted category.
  - Every network exchange a handler waits for is a parameter saying how
    it ended.

Shared helpers:

* `Text`: white-space trimming, splitting into words, normalisation and
  decimal digits.
* `Seqs`: `Array.prototype.filter`, `Array.from(new Set(xs))` and the
  subsequence relation.
* `Sorting`: a stable insertion sort under a total preorder, and
  code-point string order.
* `Wrappers`: `Option`.

Points where the code behaves in a way a reader might not expect, and
which the model keeps as written:

* **No authentication or owners.** There is no authentication and no
  owner scoping. The schemas carry no owner field, and every route sees
  every row.
* **Validation errors are 500.** A body the Item schema rejects goes
  through `next(e)` to the generic handler. So do a multer rejection (a
  non-image type, a file over 5 MiB, a wrong field name) and an `:id`
  that is not an ObjectId. The answer is 500 `Internal Server Error`,
  not a 400 or 404.
* **Updates merge.** `PUT /api/items/:id` changes only the fields the
  body carries (Mongoose's `$set`). It runs no validators, so an update
  can store any status string.
* **Local disk only.** Images live only on local disk. There is no
  remote object store and no `imagePublicId` handling.
* **Category delete ends with the local list.** On the client,
  `handleDeleteCategory` sets the reloaded list and then overwrites it
  with the old list minus the deleted name. So the final list is the
  local one whatever the server did (`Organizer.DeleteCategory`).
* **The add guard compares the untrimmed name.** `handleAddCategory`
  compares the name as typed, not trimmed, with the list. On the
  fallback paths, `" Shirts"` can sit next to `"Shirts"`. The server
  trims and would answer with the existing record.
* **An unusual extension orphans the image.** The stored file name ends
  in the original extension, and the delete route reads the name back
  through `new URL(...).pathname`, which percent-encodes a space or a
  non-ASCII character and cuts the path at `?` or `#`. For such an
  extension (`"photo.jp g"`) the derived name matches no file: the
  delete answers 204 and the upload stays on disk
  (`ServerProperties.SpacedExtensionOrphansFile`). With an extension of
  letters, digits, `-`, `.`, `_` and `~` the file is removed
  (`ServerProperties.UploadThenDeleteRemovesFile`).
* **A shared image goes with either item.** The delete route unlinks
  the file its document's `imageUrl` names without asking whether
  another document points at it. Two items with the same URL, which any
  create or update body can produce, lose their shared file when either
  is deleted (`ServerProperties.DeleteRemovesSharedImage`).

## Model

| member | source | states |
|---|---|---|
| Text.Trim | src/pages/ClothesOrganizer.jsx:352 | trimming leaves nothing exactly when the input is all white space; otherwise it leaves the slice between the leading and the trailing white space, which neither starts nor ends with white space |
| Text.TrimIdempotent | src/pages/ClothesOrganizer.jsx:352 | trimming an already trimmed string changes nothing |
| Text.Tokens | src/pages/ClothesOrganizer.jsx:356 | splitting on white space and dropping empty pieces gives non-empty words without white space, and no word at all exactly when the text is all white space |
| Text.TokensOfTrim | src/pages/ClothesOrganizer.jsx:352-356 | trimming before splitting on white space changes no word, and the trimmed text is empty exactly when it has no words |
| Text.TokensOfJoin | src/pages/ClothesOrganizer.jsx:356 | splitting on white space and dropping empty pieces returns exactly the non-empty, space-free words that were joined with spaces |
| Text.TokensSplitAtSpace | src/pages/ClothesOrganizer.jsx:356 | the words of `a + space + b` are the words of `a` followed by the words of `b` |
| Text.Normalize | src/pages/ClothesOrganizer.jsx:345-350 | a single character normalises to nothing when it is a combining diacritical mark and to its lower-case form otherwise; the result has no upper-case ASCII letter and no mark, and is no longer than the input |
| Text.NormalizeIdempotent | src/pages/ClothesOrganizer.jsx:345-350 | normalising twice gives the same text as normalising once |
| Text.NormalizeAppend | src/pages/ClothesOrganizer.jsx:345-350 | normalisation works character by character: the normal form of a concatenation is the concatenation of the normal forms |
| Text.NormalizeIgnoresCase | src/pages/ClothesOrganizer.jsx:348 | strings that differ only in the case of ASCII letters have the same normal form |
| Text.ParseNatToString | server/index.js:23 | reading back the decimal digits of a number yields the number |
| Seqs.Filter | src/pages/ClothesOrganizer.jsx:260 | the filtered list keeps only elements that pass, keeps every element that passes, and keeps the original order |
| Seqs.FilterCount | src/pages/ClothesOrganizer.jsx:260 | each passing value is kept exactly as often as it occurs, and each failing value is dropped entirely |
| Seqs.Dedupe | src/pages/ClothesOrganizer.jsx:291 | passing a list through a set leaves no duplicates, the same members, and a subsequence of the list |
| Seqs.DedupeAppend | src/pages/ClothesOrganizer.jsx:291 | the set keeps insertion order: a value already present keeps its first place, and a new value goes to the end |
| Seqs.DedupeAppendFresh | src/pages/ClothesOrganizer.jsx:291 | adding a new name through a set to a duplicate-free list just appends it |
| Seqs.FilterNoDups | src/pages/ClothesOrganizer.jsx:324 | filtering a duplicate-free list keeps it duplicate-free |
| Sorting.SortBy | server/index.js:90 | the sorted list is ordered by the given total preorder and is a permutation of the input |
| Sorting.LexLeTransitive | server/index.js:144 | code-point string order is transitive, so names sort consistently |
| Store.FindCategory | server/index.js:159 | the lookup by name finds the first category with that name, and reports none exactly when no category has it |
| Store.FindItem | server/index.js:108 | the lookup by id finds the first item with that id, and reports none exactly when no item has it |
| Uploads.AcceptedImage | server/index.js:31-34 | the file filter admits exactly the files whose MIME type starts with "image/" |
| Uploads.StoredName | server/index.js:23-25 | the stored name `<timestamp>-<random><ext>` starts with a digit and, for an extension without a separator, is a plain file name |
| Uploads.PublicUrl | server/index.js:80 | the public URL of a stored file is `<protocol>://<host>/uploads/<name>` |
| Uploads.Extension | server/index.js:24 | the extension is `path.extname` of the original name when that is not empty, and ".jpg" otherwise; it starts with a dot and has no separator |
| Uploads.JoinUpload | server/index.js:129 | joining a plain name onto the upload directory gives a path directly inside it; "" and "." give the directory itself, and ".." a path that escapes the directory's prefix |
| Uploads.Upload | server/index.js:20-35 | no file gives 400 "image file required"; a wrong field, a non-image type or a file over 5 MiB gives 500 and stores nothing; a file is accepted exactly otherwise, with 201, the URL `<protocol>://<host>/uploads/<name>`, and the file added directly inside the upload directory |
| Uploads.StoredNameRoundTrip | server/index.js:23-25 | the stored name `<timestamp>-<random><ext>` can be parsed back into its timestamp, random value and extension |
| Uploads.StoredNameInjective | server/index.js:23-25 | different timestamp, random value or extension never give the same stored file name |
| Uploads.StoredNameUnreserved | server/index.js:23-24 | a stored name has only URL-unreserved characters exactly when the original extension has |
| Uploads.ImageFileName | server/index.js:123-128 | the name the delete route derives is the basename of the URL's pathname, or of the raw string when it does not parse, and never holds a separator |
| Uploads.CleanupImage | server/index.js:119-133 | cleanup removes nothing but the path joined from the URL's basename, and only when that path lies directly inside the upload directory; that file is removed when it exists |
| Items.ListItems | server/index.js:88-95 | the item listing is a permutation of the stored items in ascending `createdAt` order and changes nothing |
| Items.PassesItemSchema | server/index.js:41-49 | the schema accepts a body exactly when name and category are non-empty strings and a given status is one of the three enum values |
| Items.CreateItem | server/index.js:41-49 | a body missing name or category, or with a status outside the enum, gives 500 and stores nothing; otherwise 201 with status defaulting to "Washed" and imageUrl to null, a fresh id, the document appended, and store integrity kept |
| Items.ApplyUpdate | server/index.js:106-108 | an update replaces exactly the fields the body carries, keeps the id and creation time, and refreshes the update time |
| Items.UpdateItem | server/index.js:106-114 | an id that is not an ObjectId gives 500; an absent id gives 404 "Not found" and changes nothing; otherwise 200 with the updated document, and no other item changes |
| Items.DeleteItem | server/index.js:116-139 | an id that is not an ObjectId gives 500; otherwise always 204, with exactly the items of that id removed, nothing changed for an absent id, categories untouched; files change only through the cleanup of the deleted document's image, and not at all when it has none |
| Items.DeleteItemPreservesValid | server/index.js:116-118 | deleting an item keeps ids unique and the store valid |
| Categories.ListCategories | server/index.js:142-149 | the category listing is a permutation of the stored categories in ascending name order, with distinct names in a valid store |
| Categories.CreateCategory | server/index.js:151-164 | a name blank after trimming gives 400 "name required" and stores nothing; an existing trimmed name gives 200 with the existing record; a new one is stored trimmed and returned with 201; items and files are untouched |
| Categories.CreateCategoryPreservesValid | server/index.js:52 | category creation never produces a second category with the same name |
| Categories.DeleteCategory | server/index.js:166-173 | category deletion always answers 204, removes exactly the category with that name, and leaves items, which keep the stale label, untouched |
| Categories.DeleteCategoryPreservesValid | server/index.js:166-169 | deleting a category keeps names and ids unique and the store valid |
| ServerProperties.CreateCategoryIdempotent | server/index.js:151-164 | posting the same name twice answers the second time with 200 and the first record, and stores nothing new |
| ServerProperties.CreateThenDeleteCategory | server/index.js:151-173 | creating a new category and deleting it by name restores the category collection |
| ServerProperties.DeletedCategoryNotListed | server/index.js:166-169 | after a deletion the listing no longer shows the name, while items keep it |
| ServerProperties.CreatedItemListed | server/index.js:97-100 | a created item appears in the next listing |
| ServerProperties.CreateThenDeleteItem | server/index.js:97-139 | creating an item and deleting it by its new id restores the item collection and answers 201 then 204 |
| ServerProperties.UploadThenDeleteRemovesFile | server/index.js:77-135 | when the original extension has only unreserved characters, an uploaded image attached to a new item is removed, and nothing else is, when the item is deleted |
| ServerProperties.LifecyclePlatformExists | server/index.js:77-80 | the parser, basename and extname properties the lifecycle lemma assumes can all be met together, for any protocol and host |
| ServerProperties.SpacedExtensionOrphansFile | server/index.js:116-135 | when the extension holds a space that the URL parser percent-encodes, deleting the item answers 204 and removes the item but leaves the uploaded file in place |
| ServerProperties.DeleteItemSparesOtherFiles | server/index.js:125-131 | deleting an item keeps every file other than the path derived from the deleted item's own image URL |
| ServerProperties.DeleteRemovesSharedImage | server/index.js:116-135 | when another item carries the same image URL, deleting one answers 204 and keeps the other item, but removes the file it still points at |
| Search.FilteredItems | src/pages/ClothesOrganizer.jsx:359-364 | a tab shows an order-preserving subsequence of the list: the items with the tab's status, or any status on "All", that match the search, and every such item |
| Search.MatchesSearch | src/pages/ClothesOrganizer.jsx:351-358 | a query that is white space once normalised matches every item; otherwise every word of the trimmed, normalised query must occur in the normalised `name category` text |
| Search.MatchesSearchIffAllTokens | src/pages/ClothesOrganizer.jsx:351-358 | an item matches exactly when every word of the normalised query occurs in the normalised `name category` text; a query with no words matches every item |
| Search.BlankQueryShowsAll | src/pages/ClothesOrganizer.jsx:352-353 | a query that is only white space after normalising leaves the "All" tab showing the whole list |
| Search.SearchIgnoresCase | src/pages/ClothesOrganizer.jsx:344-358 | changing the case of ASCII letters in the query, the item's name or its category never changes whether the item matches |
| Search.QueryNormalisationInvariant | src/pages/ClothesOrganizer.jsx:345-352 | searching for the normalised query gives the same answer as the query itself, so case and combining marks do not matter |
| Search.JoinedQueryIsConjunction | src/pages/ClothesOrganizer.jsx:356-357 | two queries joined by a space match exactly the items both match |
| Search.MoreWordsNarrow | src/pages/ClothesOrganizer.jsx:356-363 | adding words to the query can only shrink what a tab shows |
| Search.StatusTabsPartition | src/pages/ClothesOrganizer.jsx:53 | with valid statuses, the Washed, Unwashed and Lost/Unused tabs together show exactly what "All" shows |
| Organizer.MakeBlankItem | src/pages/ClothesOrganizer.jsx:25-31 | a fresh draft has an empty name, status "Washed", no image, and the first category or "" |
| Organizer.BlankDraftNotSaveable | src/pages/ClothesOrganizer.jsx:149 | a fresh blank draft can never pass the save guard |
| Organizer.UploadImageIfNeeded | src/pages/ClothesOrganizer.jsx:63-103 | no image or an empty string gives null, a URL string is returned as is, and a file gives null on failure, and on an answer an object holding the answered URL when it is non-empty and null otherwise |
| Organizer.CanSave | src/pages/ClothesOrganizer.jsx:149-151 | a save needs a name and a category that are not blank and no save in progress; a saveable draft has a non-empty name and category |
| Organizer.ChosenImageUrl | src/pages/ClothesOrganizer.jsx:211-216 | a URL is sent only when it is the draft's own image string or the non-empty URL the upload answered with |
| Organizer.Payload | src/pages/ClothesOrganizer.jsx:207-219 | the body carries the draft's name, category and status and always an imageUrl key, whose stored value is the chosen URL or null |
| Organizer.ChosenImageUrlCases | src/pages/ClothesOrganizer.jsx:211-216 | the payload's imageUrl is the uploaded URL when the upload gave one, else the draft's image when it is a string, else null |
| Organizer.SaveablePayloadAccepted | src/pages/ClothesOrganizer.jsx:207-219 | for a draft that passes the save guard, the server's schema accepts the payload exactly when the status is one of the enum values |
| Organizer.SavedDocumentMatchesDraft | src/pages/ClothesOrganizer.jsx:207-219 | the server stores a saved draft's name, category, status and chosen image URL |
| Organizer.FromSaved | src/pages/ClothesOrganizer.jsx:230-236 | a saved document becomes a list entry with the same fields, a non-empty image URL stays that URL, and a missing or empty one becomes no image |
| Organizer.SaveItem | src/pages/ClothesOrganizer.jsx:148-248 | a failed guard changes nothing; otherwise an edited entry is replaced in place with the others kept, or a new one is appended, and the form is reset to a blank draft with no save in progress |
| Organizer.SaveNotRepeated | src/pages/ClothesOrganizer.jsx:149-151 | a second save right after a save changes nothing, so no item is added twice |
| Organizer.NoSaveWhileSaving | src/pages/ClothesOrganizer.jsx:151 | while a save is in progress any further save is refused and changes nothing |
| Organizer.RemoveItem | src/pages/ClothesOrganizer.jsx:250-261 | a confirmed removal keeps, in order, exactly the entries whose id differs, whatever the server answered; an unconfirmed one changes nothing |
| Organizer.RemoveItemExact | src/pages/ClothesOrganizer.jsx:260 | every entry with the id goes, and every other entry stays as often as it was there |
| Organizer.RemoveItemIdempotent | src/pages/ClothesOrganizer.jsx:260 | removing the same id twice is the same as removing it once |
| Organizer.AddCategory | src/pages/ClothesOrganizer.jsx:263-298 | a blank name, or one already listed, changes nothing; a 401 sends the browser to sign-in and changes nothing; a successful reload shows the server's names; every other ending adds the name once through a set; every ending but a 401 clears the entry field; only the list and the entry field change |
| Organizer.AddCategoryKeepsNoDups | src/pages/ClothesOrganizer.jsx:289-294 | adding never makes the category list contain a duplicate |
| Organizer.ServerListingHasDistinctNames | server/index.js:142-149 | the names the client reloads from a valid store are distinct |
| Organizer.DeleteCategory | src/pages/ClothesOrganizer.jsx:300-330 | with one category or none the delete is refused and nothing changes; a 401 changes nothing; otherwise the list loses exactly that name in order and a draft under it moves to the first remaining category or "" |
| Organizer.DeleteCategoryKeepsOne | src/pages/ClothesOrganizer.jsx:302-305 | deleting from a duplicate-free list of two or more leaves at least one category, and the draft never stays under the deleted name |
| Organizer.DeleteCategoryKeepsNoDups | src/pages/ClothesOrganizer.jsx:324 | deletion keeps the list duplicate-free, and deleting an unlisted name leaves the list as it was |

## Left out

- Text.Normalize: lower-cases only A-Z and drops only the combining marks U+0300 to U+036F already present in the text. It does not do Unicode NFD decomposition or non-ASCII case mapping. So a precomposed "é" is not reduced to "e" as `String.prototype.normalize("NFD")` would do.
- Authentication, tokens, Web Storage and the sign-in redirect target: the server code has none. The client's redirects are reduced to a `toSignIn` flag.
- The network, `fetch` and `XMLHttpRequest`: each reply a handler waits for is a parameter saying how the exchange ended. Upload progress percentages are floating point and UI only.
- `Date.now()`, `Math.random()` and `makeId()`: the timestamp, the random value and the ids are parameters.
- The file system: the upload directory's contents are a set of paths. An unlink that fails for a reason other than a missing file (permissions) is not modelled; the route swallows such errors in any case.
- `new URL(...).pathname`, `path.basename` and `path.extname`: abstract functions in `Uploads.Platform`, constrained by their shapes. The lifecycle lemmas add two stated properties: the parser reads an upload URL back unchanged when its file name is plain (not empty, "." or "..", no separator) and has only unreserved characters (`ReadsBackUploadUrls`; the WHATWG parser would resolve the dot segments "." and "..", which stored names never are), and `basename` takes the last segment (`BasenameOfUploadPath`). `ServerProperties.LifecyclePlatformExists` shows a platform meeting both shapes and both properties at once. The orphan lemma names the one percent-encoded path it needs. `path.join` is modelled for the single separator-free names a basename yields.
- Database failures and the concurrent race on the unique name index: the store answers every query, and requests run one at a time.
- Items.ListItems and Categories.ListCategories: they state the order and the permutation, not how MongoDB breaks ties between equal keys.
- JSON values other than strings for `name`, `category` and `status`, and Mongoose's casting of them: a field is a string or missing, and `imageUrl` is a string, `null` or missing. A non-string category name on `POST /api/categories` throws before the route's `try` and is not modelled.
- Items.CreateItem: body keys other than name, category, status and imageUrl are not modelled. A client-supplied `_id` (used by `Item.create`, a duplicate ending in 500) or timestamps are ignored, and the model always assigns the next id.
- Items.UpdateItem: the same holds for updates. A `$set` that tries to change `_id`, which the database refuses with a 500, is not modelled; the model answers 200 for any update of an existing id.
- Organizer.SaveItem: assumes the index of the item under edit points into the list, as the edit button sets it. An out-of-range index is not modelled.
- Organizer.AddCategory: uses the list at the time of the call for the `setCategories(prev => ...)` updates. State changes that other events interleave are not modelled.
- The `imagePublicId` payload key: this server's upload answer never carries a `publicId`, so the key is always undefined and is not sent.
- The initial load effect, item editing entry points, the modal, previews, drag-and-drop, the category picker and all rendering: UI and browser APIs.
- The health and base routes, static file serving, CORS, the JSON body limit and server start-up: framework plumbing with no state rules.

=== FILE: categories.dfy ===
/** The Category routes: `GET /api/categories`, `POST /api/categories`
    and `DELETE /api/categories/:name`. */
module Categories {
  import opened Wrappers
  import opened Text
  import opened Seqs
  import opened Sorting
  import opened Store

  // ----- listing -----------------------------------------------------------

  /** The listing order, `sort({ name: 1 })`. */
  predicate NameNoGreater(a: Category, b: Category) {
    LexLe(a.name, b.name)
  }

  lemma NameOrderIsTotalPreorder()
    ensures TotalPreorder(NameNoGreater)
  {
    forall a: Category, b: Category
      ensures NameNoGreater(a, b) || NameNoGreater(b, a)
    {
      LexLeTotal(a.name, b.name);
    }
    forall a: Category, b: Category, c: Category | NameNoGreater(a, b) && NameNoGreater(b, c)
      ensures NameNoGreater(a, c)
    {
      LexLeTransitive(a.name, b.name, c.name);
    }
  }

  /** `GET /api/categories`: every stored category once, in ascending name
      order; with unique names the order is strict. */
  function ListCategories(st: Store): (r: Outcome)
    ensures r.store == st
    ensures r.response.code == 200 && r.response.body.CategoryList?
    ensures var listed := r.response.body.categories;
            && multiset(listed) == multiset(st.categories)
            && (forall i, j :: 0 <= i < j < |listed| ==> LexLe(listed[i].name, listed[j].name))
            && (Valid(st) ==> forall i, j :: 0 <= i < j < |listed| ==> listed[i].name != listed[j].name)
  {
    NameOrderIsTotalPreorder();
    var listed := SortBy(st.categories, NameNoGreater);
    UniqueNamesPermutation(st.categories, listed);
    Outcome(Response(200, CategoryList(listed)), st)
  }

  /** Reordering keeps names unique. */
  lemma UniqueNamesPermutation(a: seq<Category>, b: seq<Category>)
    ensures UniqueNames(a) && multiset(a) == multiset(b) ==> UniqueNames(b)
  {
    if UniqueNames(a) && multiset(a) == multiset(b) {
      UniqueNamesReordered(a, b);
    }
  }

  lemma UniqueNamesReordered(a: seq<Category>, b: seq<Category>)
    requires UniqueNames(a)
    requires multiset(a) == multiset(b)
    ensures UniqueNames(b)
  {
    forall i, j | 0 <= i < j < |b|
      ensures b[i].name != b[j].name
    {
      if b[i].name == b[j].name {
        assert b[i] in multiset(a) && b[j] in multiset(a);
        var i' :| 0 <= i' < |a| && a[i'] == b[i];
        var j' :| 0 <= j' < |a| && a[j'] == b[j];
        assert i' == j';
        assert b[i] == b[j];
        assert multiset(b)[b[i]] >= 2 by {
          assert b == b[..i] + [b[i]] + b[i + 1..j] + [b[j]] + b[j + 1..];
        }
        MultiplicityUnique(a, i');
        assert false;
      }
    }
  }

  lemma {:induction false} MultiplicityUnique(a: seq<Category>, i: nat)
    requires UniqueNames(a) && i < |a|
    ensures multiset(a)[a[i]] == 1
  {
    if i == 0 {
      assert a == [a[0]] + a[1..];
      assert a[0] !in a[1..];
    } else {
      assert a == [a[0]] + a[1..];
      assert a[0] != a[i];
      MultiplicityUnique(a[1..], i - 1);
    }
  }

  // ----- creation ----------------------------------------------------------

  /** The name the route works with: `(req.body.name || '').trim()`. */
  function RequestedName(name: Option<string>): string {
    Trim(name.GetOr(""))
  }

  /** `POST /api/categories`. A name that is blank after trimming is a 400
      and stores nothing. A trimmed name already taken makes the unique
      index reject the insert, and the route answers 200 with the existing
      record; a new name is stored and answered with 201. */
  function CreateCategory(st: Store, name: Option<string>, now: int): (r: Outcome)
    ensures RequestedName(name) == [] ==> r == Outcome(Response(400, ErrorBody("name required")), st)
    ensures RequestedName(name) != [] && FindCategory(st.categories, RequestedName(name)).Some? ==>
              r == Outcome(Response(200, CategoryDoc(st.categories[FindCategory(st.categories, RequestedName(name)).value])), st)
    ensures RequestedName(name) != [] && FindCategory(st.categories, RequestedName(name)).None? ==>
              && r.response.code == 201
              && r.response.body.CategoryDoc?
              && r.response.body.category.name == RequestedName(name)
              && r.store == st.(categories := st.categories + [r.response.body.category], nextId := r.store.nextId)
              && r.store.nextId > st.nextId
    ensures r.response.code == 200 || r.response.code == 201 ==>
              r.response.body.CategoryDoc? && r.response.body.category in r.store.categories
              && r.response.body.category.name == RequestedName(name)
    ensures r.store.items == st.items && r.store.files == st.files
  {
    var n := RequestedName(name);
    if n == [] then Outcome(Response(400, ErrorBody("name required")), st)
    else match FindCategory(st.categories, n)
      case Some(i) => Outcome(Response(200, CategoryDoc(st.categories[i])), st)
      case None =>
        var c := Category(st.nextId, n, now, now);
        Outcome(Response(201, CategoryDoc(c)), st.(categories := st.categories + [c], nextId := st.nextId + 1))
  }

  /** Creation never produces a second category with the same name. */
  lemma CreateCategoryPreservesValid(st: Store, name: Option<string>, now: int)
    requires Valid(st)
    ensures Valid(CreateCategory(st, name, now).store)
  {
    var r := CreateCategory(st, name, now);
    var n := RequestedName(name);
    if n != [] && FindCategory(st.categories, n).None? {
      var cats := r.store.categories;
      assert cats == st.categories + [cats[|cats| - 1]];
      forall i, j | 0 <= i < j < |cats|
        ensures cats[i].name != cats[j].name && cats[i].id != cats[j].id
      {
        if j == |cats| - 1 {
          assert cats[i] == st.categories[i];
        } else {
          assert cats[i] == st.categories[i] && cats[j] == st.categories[j];
        }
      }
    }
  }

  // ----- deletion ----------------------------------------------------------

  /** `DELETE /api/categories/:name`: `deleteOne({ name })`, then 204
      whether or not a category matched. Items are never touched, so any
      item filed under the name keeps it. */
  function DeleteCategory(st: Store, name: string): (r: Outcome)
    ensures r.response == Response(204, NoContent)
    ensures r.store.items == st.items && r.store.files == st.files && r.store.nextId == st.nextId
    ensures FindCategory(st.categories, name).None? ==> r.store == st
    ensures Valid(st) ==> r.store.categories == Filter(st.categories, KeyIsNot(CategoryName, name))
  {
    match FindCategory(st.categories, name)
    case None =>
      FilterKeepsAll(st.categories, KeyIsNot(CategoryName, name));
      Outcome(Response(204, NoContent), st)
    case Some(i) =>
      var cats := RemoveAt(st.categories, i);
      RemoveAtIsFilter(st.categories, CategoryName, i);
      Outcome(Response(204, NoContent), st.(categories := cats))
  }

  /** Deleting a category keeps the store's integrity. */
  lemma DeleteCategoryPreservesValid(st: Store, name: string)
    requires Valid(st)
    ensures Valid(DeleteCategory(st, name).store)
  {
    if FindCategory(st.categories, name).Some? {
      RemoveCategoryKeepsValid(st, FindCategory(st.categories, name).value);
    }
  }
}

=== FILE: items.dfy ===
/** The Item routes: `GET /api/items`, `POST /api/items`,
    `PUT /api/items/:id` and `DELETE /api/items/:id`. */
module Items {
  import opened Wrappers
  import opened Seqs
  import opened Sorting
  import opened Store
  import opened Uploads

  // ----- listing -----------------------------------------------------------

  /** The listing order, `sort({ createdAt: 1 })`. */
  predicate CreatedNoLater(a: Item, b: Item) {
    a.createdAt <= b.createdAt
  }

  lemma CreatedOrderIsTotalPreorder()
    ensures TotalPreorder(CreatedNoLater)
  {
  }

  /** `GET /api/items`: every stored item once, oldest first. */
  function ListItems(st: Store): (r: Outcome)
    ensures r.store == st
    ensures r.response.code == 200 && r.response.body.ItemList?
    ensures var listed := r.response.body.items;
            && multiset(listed) == multiset(st.items)
            && forall i, j :: 0 <= i < j < |listed| ==> listed[i].createdAt <= listed[j].createdAt
  {
    CreatedOrderIsTotalPreorder();
    var listed := SortBy(st.items, CreatedNoLater);
    Outcome(Response(200, ItemList(listed)), st)
  }

  // ----- creation ----------------------------------------------------------

  /** Mongoose's `required` check on a String path: the key is present and
      the string is not empty (white space alone passes). */
  predicate RequiredPresent(f: Option<string>) {
    f.Some? && f.value != []
  }

  /** The Item schema's validation of a new document: `name` and
      `category` are required and `status`, when given, is one of the
      enum values. */
  predicate PassesItemSchema(body: ItemFields) {
    && RequiredPresent(body.name)
    && RequiredPresent(body.category)
    && (body.status.Some? ==> IsStatus(body.status.value))
  }

  /** The stored value of `imageUrl`: `null` unless a string was sent. */
  function ImageValue(f: ImageField): (v: Option<string>)
    ensures v.Some? <==> f.ImageText?
    ensures v.Some? ==> v.value == f.url
  {
    match f
    case ImageText(u) => Some(u)
    case _ => None
  }

  /** `POST /api/items`: `Item.create(req.body)`. A body the schema
      rejects reaches the generic error handler (500) and stores nothing;
      otherwise the new document, with `status` defaulting to "Washed" and
      `imageUrl` to null, is appended and returned with 201. */
  function CreateItem(st: Store, body: ItemFields, now: int): (r: Outcome)
    ensures !PassesItemSchema(body) ==> r == Outcome(INTERNAL_ERROR, st)
    ensures PassesItemSchema(body) ==>
              && r.response.code == 201
              && r.response.body.ItemDoc?
              && var it := r.response.body.item;
              && it.name == body.name.value
              && it.category == body.category.value
              && (body.status.None? ==> it.status == WASHED)
              && (body.status.Some? ==> it.status == body.status.value)
              && IsStatus(it.status)
              && it.imageUrl == ImageValue(body.imageUrl)
              && it.createdAt == now && it.updatedAt == now
              && (forall k :: 0 <= k < |st.items| && st.items[k].id < st.nextId ==> st.items[k].id != it.id)
              && r.store == st.(items := st.items + [it], nextId := r.store.nextId)
    ensures Valid(st) ==> Valid(r.store)
  {
    if !PassesItemSchema(body) then Outcome(INTERNAL_ERROR, st)
    else
      var it := Item(
        st.nextId, body.name.value, body.category.value, body.status.GetOr(WASHED),
        ImageValue(body.imageUrl), now, now);
      Outcome(Response(201, ItemDoc(it)), st.(items := st.items + [it], nextId := st.nextId + 1))
  }

  // ----- update ------------------------------------------------------------

  /** `findByIdAndUpdate(id, body, { new: true })` on one document: Mongoose
      turns the body into `$set` of the keys it carries, so a key that is
      sent replaces the field, a missing key leaves it alone, and `null`
      clears `imageUrl`. Update validators are off, so no enum or required
      check runs. The timestamps plugin refreshes `updatedAt`. */
  function ApplyUpdate(it: Item, body: ItemFields, now: int): (u: Item)
    ensures u.id == it.id && u.createdAt == it.createdAt && u.updatedAt == now
    ensures u.name == (if body.name.Some? then body.name.value else it.name)
    ensures u.category == (if body.category.Some? then body.category.value else it.category)
    ensures u.status == (if body.status.Some? then body.status.value else it.status)
    ensures body.imageUrl.ImageAbsent? ==> u.imageUrl == it.imageUrl
    ensures !body.imageUrl.ImageAbsent? ==> u.imageUrl == ImageValue(body.imageUrl)
  {
    Item(
      it.id,
      body.name.GetOr(it.name),
      body.category.GetOr(it.category),
      body.status.GetOr(it.status),
      if body.imageUrl.ImageAbsent? then it.imageUrl else ImageValue(body.imageUrl),
      it.createdAt,
      now)
  }

  /** `PUT /api/items/:id`. An id that is not an ObjectId makes the cast
      throw (500); an id with no document is a 404; otherwise that one
      document is updated in place and returned with 200. */
  function UpdateItem(st: Store, id: IdParam, body: ItemFields, now: int): (r: Outcome)
    ensures id.NotAnObjectId? ==> r == Outcome(INTERNAL_ERROR, st)
    ensures (id.ObjectId? && forall k :: 0 <= k < |st.items| ==> st.items[k].id != id.n)
              ==> r == Outcome(Response(404, ErrorBody("Not found")), st)
    ensures id.ObjectId? && FindItem(st.items, id.n).Some? ==>
              var i := FindItem(st.items, id.n).value;
              && |r.store.items| == |st.items|
              && r.response == Response(200, ItemDoc(r.store.items[i]))
              && r.store.items[i] == ApplyUpdate(st.items[i], body, now)
              && (forall k :: 0 <= k < |st.items| && k != i ==> r.store.items[k] == st.items[k])
              && r.store == st.(items := r.store.items)
    ensures Valid(st) ==> Valid(r.store)
  {
    match id
    case NotAnObjectId => Outcome(INTERNAL_ERROR, st)
    case ObjectId(n) =>
      match FindItem(st.items, n)
      case None => Outcome(Response(404, ErrorBody("Not found")), st)
      case Some(i) =>
        var u := ApplyUpdate(st.items[i], body, now);
        Outcome(Response(200, ItemDoc(u)), st.(items := st.items[i := u]))
  }

  // ----- deletion ----------------------------------------------------------

  /** Whether deleting this document triggers the image cleanup: its
      `imageUrl` is a non-empty string (`doc?.imageUrl` is truthy). */
  predicate HasImage(it: Item) {
    it.imageUrl.Some? && it.imageUrl.value != []
  }

  /** Removes the document at position `i` and cleans up its image file. */
  function RemoveDocument(st: Store, i: nat, p: Platform, uploadDir: string): (st': Store)
    requires i < |st.items|
    requires BasenameShape(p)
    requires ValidUploadDir(uploadDir)
    requires uploadDir !in st.files
    ensures st'.items == RemoveAt(st.items, i)
    ensures st'.categories == st.categories && st'.nextId == st.nextId
    ensures !HasImage(st.items[i]) ==> st'.files == st.files
    ensures HasImage(st.items[i]) ==> st'.files == CleanupImage(p, uploadDir, st.files, st.items[i].imageUrl.value)
  {
    var doc := st.items[i];
    var files := if HasImage(doc) then CleanupImage(p, uploadDir, st.files, doc.imageUrl.value) else st.files;
    st.(items := RemoveAt(st.items, i), files := files)
  }

  /** `DELETE /api/items/:id`. An id that is not an ObjectId makes the
      cast throw (500). Otherwise the answer is 204 whether or not a
      document matched; a matched document is removed and, when it has an
      image URL, its file is cleaned up on a best-effort basis: only a file
      directly inside the upload directory can go. */
  function DeleteItem(st: Store, id: IdParam, p: Platform, uploadDir: string): (r: Outcome)
    requires BasenameShape(p)
    requires ValidUploadDir(uploadDir)
    requires uploadDir !in st.files
    ensures id.NotAnObjectId? ==> r == Outcome(INTERNAL_ERROR, st)
    ensures id.ObjectId? ==> r.response == Response(204, NoContent)
    ensures (id.ObjectId? && forall k :: 0 <= k < |st.items| ==> st.items[k].id != id.n) ==> r.store == st
    ensures r.store.categories == st.categories && r.store.nextId == st.nextId
    ensures (id.ObjectId? && Valid(st)) ==> r.store.items == Filter(st.items, KeyIsNot(ItemId, id.n))
    ensures r.store.files <= st.files
    ensures forall f :: f in st.files - r.store.files ==> InsideDir(uploadDir, f)
    ensures id.ObjectId? && FindItem(st.items, id.n).Some? ==>
              var doc := st.items[FindItem(st.items, id.n).value];
              && (!HasImage(doc) ==> r.store.files == st.files)
              && (HasImage(doc) ==> r.store.files == CleanupImage(p, uploadDir, st.files, doc.imageUrl.value))
  {
    match id
    case NotAnObjectId => Outcome(INTERNAL_ERROR, st)
    case ObjectId(n) =>
      match FindItem(st.items, n)
      case None =>
        FilterKeepsAll(st.items, KeyIsNot(ItemId, n));
        Outcome(Response(204, NoContent), st)
      case Some(i) =>
        RemoveAtIsFilter(st.items, ItemId, i);
        Outcome(Response(204, NoContent), RemoveDocument(st, i, p, uploadDir))
  }

  /** Deleting an item keeps the store's integrity. */
  lemma DeleteItemPreservesValid(st: Store, id: IdParam, p: Platform, uploadDir: string)
    requires BasenameShape(p)
    requires ValidUploadDir(uploadDir)
    requires uploadDir !in st.files
    requires Valid(st)
    ensures Valid(DeleteItem(st, id, p, uploadDir).store)
  {
    var r := DeleteItem(st, id, p, uploadDir);
    if id.ObjectId? && FindItem(st.items, id.n).Some? {
      var i := FindItem(st.items, id.n).value;
      assert r.store == st.(items := RemoveAt(st.items, i), files := r.store.files);
      RemoveItemKeepsValid(st, i, r.store.files);
    }
  }
}

=== FILE: organizer.dfy ===
/** The organiser page's local state and the handlers that change it:
    saving the draft item, removing an item, and adding and deleting
    categories. Every network exchange a handler awaits is a parameter
    describing how it ended. */
module Organizer {
  import opened Wrappers
  import opened Text
  import opened Seqs
  import opened Store
  import Items
  import Categories
  import opened Search

  /** The page state the handlers read and write. `editing` is the list
      position of the item open for editing, if any. */
  datatype OrganizerState = OrganizerState(
    items: seq<ClientItem>,
    categories: seq<string>,
    draft: ClientItem,
    editing: Option<nat>,
    newCategory: string,
    isSaving: bool)

  /** A handler's result: the next state and whether it sent the browser
      to the sign-in page. */
  datatype Step = Step(state: OrganizerState, toSignIn: bool)

  // ----- the draft item ----------------------------------------------------

  /** `makeBlankItem`: an empty draft filed under the first category. */
  function MakeBlankItem(categories: seq<string>, id: string): (d: ClientItem)
    ensures d.id == id && d.name == [] && d.status == WASHED && d.image == NoImage
    ensures categories != [] ==> d.category == categories[0]
    ensures categories == [] ==> d.category == []
  {
    ClientItem(id, "", if categories == [] then "" else categories[0], WASHED, NoImage)
  }

  /** The save guard: a name that is not blank, a category that is
      neither empty nor blank, and no save already under way. */
  predicate CanSave(draft: ClientItem, isSaving: bool)
    ensures CanSave(draft, isSaving) ==> !isSaving && draft.name != [] && draft.category != []
  {
    && !IsBlank(draft.name)
    && !(draft.category == [] || IsBlank(draft.category))
    && !isSaving
  }

  /** A fresh blank draft can never be saved as it is. */
  lemma BlankDraftNotSaveable(categories: seq<string>, id: string, isSaving: bool)
    ensures !CanSave(MakeBlankItem(categories, id), isSaving)
  {
    assert Trim("") == "";
  }

  // ----- the image URL of the payload --------------------------------------

  /** How the image upload ended: a 2xx answer whose JSON `url` field is
      given (or missing), or a failure (non-2xx status, network error or
      unreadable body), which the helper turns into `null`. */
  datatype UploadReply = UploadAnswered(url: Option<string>) | UploadFailed

  /** What `uploadImageIfNeeded` resolves to: `null`, the draft's image
      string itself, or an object whose `url` is a non-empty string or
      `null`. */
  datatype UploadValue = NullValue | StringValue(s: string) | UrlObject(url: Option<string>)

  function UploadImageIfNeeded(img: DraftImage, reply: UploadReply): (v: UploadValue)
    ensures img.NoImage? ==> v == NullValue
    ensures img.ImageUrl? ==> v == (if img.url == [] then NullValue else StringValue(img.url))
    ensures img.ImageFile? && reply.UploadFailed? ==> v == NullValue
    ensures img.ImageFile? && reply.UploadAnswered? ==>
              v.UrlObject? && (v.url.Some? <==> reply.url.Some? && reply.url.value != [])
    ensures v.UrlObject? ==> img.ImageFile? && (v.url.Some? ==> v.url.value != [] && reply == UploadAnswered(v.url))
  {
    match img
    case NoImage => NullValue
    case ImageUrl(u) => if u == [] then NullValue else StringValue(u)
    case ImageFile(_) =>
      match reply
      case UploadFailed => NullValue
      case UploadAnswered(u) => UrlObject(if u.Some? && u.value != [] then u else None)
  }

  /** The payload's `imageUrl`: the uploaded URL when the upload produced
      one, otherwise the draft's image when it is a string, otherwise
      `null`. */
  function ChosenImageUrl(img: DraftImage, reply: UploadReply): (r: Option<string>)
    ensures r.Some? ==> img == ImageUrl(r.value) || (img.ImageFile? && r.value != [] && reply == UploadAnswered(r))
  {
    match img
    case ImageUrl(u) => Some(u)
    case _ =>
      match UploadImageIfNeeded(img, reply)
      case UrlObject(Some(u)) => Some(u)
      case _ => None
  }

  /** The image rule as a whole: a file whose upload answered with a
      non-empty URL contributes that URL, an image that is already a URL
      string is sent unchanged (the empty string included), and in every
      other case (no image, or a file whose upload failed or gave no URL)
      the payload carries `null`. */
  lemma ChosenImageUrlCases(img: DraftImage, reply: UploadReply)
    ensures img.ImageFile? && reply.UploadAnswered? && reply.url.Some? && reply.url.value != [] ==>
              ChosenImageUrl(img, reply) == reply.url
    ensures img.ImageUrl? ==> ChosenImageUrl(img, reply) == Some(img.url)
    ensures img.NoImage? ==> ChosenImageUrl(img, reply) == None
    ensures img.ImageFile? && (reply.UploadFailed? || reply.url.None? || reply.url.value == []) ==>
              ChosenImageUrl(img, reply) == None
  {
  }

  /** The JSON body the save sends, in the server's terms. The
      `imagePublicId` key is always left out: this server's upload answer
      never carries one. */
  function Payload(draft: ClientItem, reply: UploadReply): (body: ItemFields)
    ensures body.name == Some(draft.name) && body.category == Some(draft.category) && body.status == Some(draft.status)
    ensures !body.imageUrl.ImageAbsent?
    ensures Items.ImageValue(body.imageUrl) == ChosenImageUrl(draft.image, reply)
  {
    ItemFields(
      Some(draft.name), Some(draft.category), Some(draft.status),
      match ChosenImageUrl(draft.image, reply)
      case Some(u) => ImageText(u)
      case None => ImageNull)
  }

  /** The client's guard is at least as strict as the server's schema on
      name and category: a draft that may be saved is accepted by the
      schema exactly when its status is one of the three enum values. */
  lemma SaveablePayloadAccepted(draft: ClientItem, isSaving: bool, reply: UploadReply)
    requires CanSave(draft, isSaving)
    ensures Items.PassesItemSchema(Payload(draft, reply)) <==> IsStatus(draft.status)
  {
  }

  /** The server stores what the save sends: the created document carries
      the draft's name, category and status and the chosen image URL. */
  lemma SavedDocumentMatchesDraft(st: Store, draft: ClientItem, reply: UploadReply, now: int)
    requires CanSave(draft, false) && IsStatus(draft.status)
    ensures var r := Items.CreateItem(st, Payload(draft, reply), now);
            && r.response.code == 201
            && r.response.body.item.name == draft.name
            && r.response.body.item.category == draft.category
            && r.response.body.item.status == draft.status
            && r.response.body.item.imageUrl == ChosenImageUrl(draft.image, reply)
  {
    SaveablePayloadAccepted(draft, false, reply);
  }

  // ----- saving --------------------------------------------------------------

  /** A document the server answered a save with. */
  datatype SavedDoc = SavedDoc(id: string, name: string, category: string, status: string, imageUrl: Option<string>)

  /** How the create or update request ended: a 2xx answer with the saved
      document, or anything else (non-2xx status, network error). */
  datatype SaveReply = SaveOk(doc: SavedDoc) | SaveNotOk

  /** A saved document as a list entry; a missing or empty `imageUrl`
      becomes no image. */
  function FromSaved(d: SavedDoc): (it: ClientItem)
    ensures it.id == d.id && it.name == d.name && it.category == d.category && it.status == d.status
    ensures it.image == NoImage <==> d.imageUrl.None? || d.imageUrl.value == []
    ensures it.image.ImageUrl? ==> d.imageUrl == Some(it.image.url)
    ensures d.imageUrl.Some? && d.imageUrl.value != [] ==> it.image == ImageUrl(d.imageUrl.value)
  {
    ClientItem(d.id, d.name, d.category, d.status,
      if d.imageUrl.Some? && d.imageUrl.value != [] then ImageUrl(d.imageUrl.value) else NoImage)
  }

  /** The entry a save puts in the list: the server's document, or, when
      the save did not succeed, the draft itself (under a new id when it
      is a new item). */
  function SavedEntry(draft: ClientItem, reply: SaveReply, newId: Option<string>): ClientItem {
    match reply
    case SaveOk(d) => FromSaved(d)
    case SaveNotOk => if newId.Some? then draft.(id := newId.value) else draft
  }

  /** An `editing` position, when present, points into the list. */
  predicate EditingInRange(st: OrganizerState) {
    st.editing.Some? ==> st.editing.value < |st.items|
  }

  /** `handleAddItem`. When the guard fails nothing changes. Otherwise an
      edited item is replaced in place and a new one is appended, and the
      form is reset: a blank draft, an empty category field, no item under
      edit and no save under way. `fallbackId` is the id `makeId()` gives
      a new item the server did not accept, `blankId` the new draft's. */
  function SaveItem(st: OrganizerState, reply: SaveReply, fallbackId: string, blankId: string): (r: OrganizerState)
    requires EditingInRange(st)
    ensures !CanSave(st.draft, st.isSaving) ==> r == st
    ensures CanSave(st.draft, st.isSaving) ==>
              && r.categories == st.categories
              && r.draft == MakeBlankItem(st.categories, blankId)
              && r.editing.None? && r.newCategory == [] && !r.isSaving
    ensures CanSave(st.draft, st.isSaving) && st.editing.None? ==>
              && |r.items| == |st.items| + 1
              && r.items[..|st.items|] == st.items
              && r.items[|st.items|] == SavedEntry(st.draft, reply, Some(fallbackId))
    ensures CanSave(st.draft, st.isSaving) && st.editing.Some? ==>
              var i := st.editing.value;
              && |r.items| == |st.items|
              && r.items[i] == SavedEntry(st.draft, reply, None)
              && forall k :: 0 <= k < |st.items| && k != i ==> r.items[k] == st.items[k]
    ensures EditingInRange(r)
  {
    if !CanSave(st.draft, st.isSaving) then st
    else
      var items := match st.editing
        case Some(i) => st.items[i := SavedEntry(st.draft, reply, None)]
        case None => st.items + [SavedEntry(st.draft, reply, Some(fallbackId))];
      st.(items := items, editing := None, draft := MakeBlankItem(st.categories, blankId),
          newCategory := "", isSaving := false)
  }

  /** A save cannot be repeated: right after one, the draft is blank, so
      a second click changes nothing and no item is added twice. */
  lemma SaveNotRepeated(st: OrganizerState, reply1: SaveReply, reply2: SaveReply, id1: string, id2: string, id3: string, id4: string)
    requires EditingInRange(st)
    ensures var once := SaveItem(st, reply1, id1, id2);
            SaveItem(once, reply2, id3, id4) == once
  {
    BlankDraftNotSaveable(st.categories, id2, false);
  }

  /** While a save is under way every further save is refused. */
  lemma NoSaveWhileSaving(st: OrganizerState, reply: SaveReply, fallbackId: string, blankId: string)
    requires EditingInRange(st) && st.isSaving
    ensures SaveItem(st, reply, fallbackId, blankId) == st
  {
  }

  // ----- removing an item ----------------------------------------------------

  /** `handleDelete`: once confirmed, the list keeps every entry whose id
      differs, in order, whatever the server answered; unconfirmed, it
      stays as it is. */
  function RemoveItem(items: seq<ClientItem>, id: string, confirmed: bool): (r: seq<ClientItem>)
    ensures !confirmed ==> r == items
    ensures confirmed ==> forall i :: 0 <= i < |r| ==> r[i].id != id
    ensures confirmed ==> forall i :: 0 <= i < |items| && items[i].id != id ==> items[i] in r
    ensures IsSubsequence(r, items)
  {
    if confirmed then Filter(items, KeyIsNot(ClientId, id))
    else
      SubsequenceReflexive(items);
      items
  }

  /** Removal is exact: every entry with the id goes, every other entry
      stays as often as it was there. */
  lemma RemoveItemExact(items: seq<ClientItem>, id: string, x: ClientItem)
    ensures multiset(RemoveItem(items, id, true))[x] == if x.id == id then 0 else multiset(items)[x]
  {
    FilterCount(items, KeyIsNot(ClientId, id), x);
  }

  /** Removing the same id twice is the same as removing it once. */
  lemma RemoveItemIdempotent(items: seq<ClientItem>, id: string)
    ensures RemoveItem(RemoveItem(items, id, true), id, true) == RemoveItem(items, id, true)
  {
    FilterKeepsAll(Filter(items, KeyIsNot(ClientId, id)), KeyIsNot(ClientId, id));
  }

  // ----- adding a category -----------------------------------------------------

  /** How the category list reload after an accepted post ended: a 401, a
      list of category documents (given by their names), or an answer that
      is not a list or cannot be read, which lands in the error path. */
  datatype ReloadReply = ReloadUnauthorized | Reloaded(names: seq<string>) | ReloadUnusable

  /** How the `POST /categories` ended: a 401, a 2xx followed by a reload,
      another status, or a network error. */
  datatype CategoryPost = PostUnauthorized | PostAccepted(reload: ReloadReply) | PostRejected | PostFailed

  /** The add falls back on the local list: the post was refused or
      failed, or the reload could not be used. */
  predicate LocalFallback(post: CategoryPost) {
    post.PostRejected? || post.PostFailed? || (post.PostAccepted? && post.reload.ReloadUnusable?)
  }

  /** Either request answered 401. */
  predicate Unauthorized(post: CategoryPost) {
    post.PostUnauthorized? || (post.PostAccepted? && post.reload.ReloadUnauthorized?)
  }

  /** `handleAddCategory`. A blank entry, or one already in the list
      exactly as typed, changes nothing. A 401 sends the browser to
      sign-in and changes nothing. A successful reload replaces the list
      by the server's names; every other ending adds the typed name
      through a set. Every ending other than a 401 clears the entry field. */
  function AddCategory(st: OrganizerState, post: CategoryPost): (r: Step)
    ensures IsBlank(st.newCategory) || st.newCategory in st.categories ==> r == Step(st, false)
    ensures r.toSignIn <==> !IsBlank(st.newCategory) && st.newCategory !in st.categories && Unauthorized(post)
    ensures r.toSignIn ==> r.state == st
    ensures r.state == st.(categories := r.state.categories, newCategory := r.state.newCategory)
    ensures !IsBlank(st.newCategory) && st.newCategory !in st.categories && !Unauthorized(post) ==>
              r.state.newCategory == []
    ensures !IsBlank(st.newCategory) && st.newCategory !in st.categories && post.PostAccepted? && post.reload.Reloaded? ==>
              r.state.categories == post.reload.names
    ensures !IsBlank(st.newCategory) && st.newCategory !in st.categories && LocalFallback(post) ==>
              && (forall c :: c in r.state.categories <==> c in st.categories || c == st.newCategory)
              && NoDups(r.state.categories)
              && (NoDups(st.categories) ==> r.state.categories == st.categories + [st.newCategory])
  {
    var n := st.newCategory;
    if IsBlank(n) || n in st.categories then Step(st, false)
    else if Unauthorized(post) then Step(st, true)
    else if post.PostAccepted? && post.reload.Reloaded? then
      Step(st.(categories := post.reload.names, newCategory := ""), false)
    else
      var cats := Dedupe(st.categories + [n]);
      SetAddAppends(st.categories, n);
      Step(st.(categories := cats, newCategory := ""), false)
  }

  lemma SetAddAppends(cats: seq<string>, n: string)
    requires n !in cats
    ensures NoDups(cats) ==> Dedupe(cats + [n]) == cats + [n]
  {
    if NoDups(cats) {
      DedupeAppendFresh(cats, n);
    }
  }

  /** Adding never introduces a duplicate, provided the server's listing
      has none (which a valid store guarantees; see
      `ServerListingHasDistinctNames`). */
  lemma AddCategoryKeepsNoDups(st: OrganizerState, post: CategoryPost)
    requires NoDups(st.categories)
    requires post.PostAccepted? && post.reload.Reloaded? ==> NoDups(post.reload.names)
    ensures NoDups(AddCategory(st, post).state.categories)
  {
  }

  /** The names of category documents, in order. */
  function CategoryNames(cats: seq<Category>): (r: seq<string>)
    ensures |r| == |cats| && forall i :: 0 <= i < |cats| ==> r[i] == cats[i].name
  {
    if cats == [] then [] else [cats[0].name] + CategoryNames(cats[1..])
  }

  /** The reload reads the server's listing, whose names are distinct, so
      the list the page shows has no duplicate either. */
  lemma ServerListingHasDistinctNames(st: Store)
    requires Valid(st)
    ensures NoDups(CategoryNames(Categories.ListCategories(st).response.body.categories))
  {
  }

  // ----- deleting a category -----------------------------------------------------

  /** `handleDeleteCategory`. With at most one category the delete is
      refused and nothing changes. A 401 on the reload sends the browser
      to sign-in and changes nothing. Otherwise, whatever the server did,
      the list becomes the old list without `cat`, and a draft filed under
      `cat` moves to the first remaining category, or to "" when none
      remains. The reloaded list is set first and then overwritten by the
      local one, so it never shows. */
  function DeleteCategory(st: OrganizerState, cat: string, reloadUnauthorized: bool): (r: Step)
    ensures |st.categories| <= 1 ==> r == Step(st, false)
    ensures |st.categories| > 1 && reloadUnauthorized ==> r == Step(st, true)
    ensures r.state == st.(categories := r.state.categories, draft := r.state.draft)
    ensures r.state.draft == st.draft.(category := r.state.draft.category)
    ensures |st.categories| > 1 && !reloadUnauthorized ==>
              && !r.toSignIn
              && (forall i :: 0 <= i < |r.state.categories| ==> r.state.categories[i] != cat)
              && (forall i :: 0 <= i < |st.categories| && st.categories[i] != cat ==> st.categories[i] in r.state.categories)
              && IsSubsequence(r.state.categories, st.categories)
              && (st.draft.category != cat ==> r.state.draft == st.draft)
              && (st.draft.category == cat ==>
                    r.state.draft.category == if r.state.categories == [] then "" else r.state.categories[0])
  {
    if |st.categories| <= 1 then Step(st, false)
    else if reloadUnauthorized then Step(st, true)
    else
      var updated := Filter(st.categories, IsNot(cat));
      var draft := if st.draft.category == cat
        then st.draft.(category := if updated == [] then "" else updated[0])
        else st.draft;
      Step(st.(categories := updated, draft := draft), false)
  }

  /** The floor of one holds: deleting from a duplicate-free list of two
      or more leaves at least one category, and the draft is never left
      filed under the deleted name. */
  lemma DeleteCategoryKeepsOne(st: OrganizerState, cat: string)
    requires NoDups(st.categories) && |st.categories| > 1
    ensures var r := DeleteCategory(st, cat, false);
            && |r.state.categories| >= 1
            && r.state.draft.category != cat
            && (st.draft.category in st.categories ==> r.state.draft.category in r.state.categories)
  {
    var cats := st.categories;
    var r := DeleteCategory(st, cat, false);
    var k := if cats[0] != cat then 0 else 1;
    assert cats[k] != cat;
    assert cats[k] in r.state.categories;
  }

  /** Deleting a name keeps the list duplicate-free, and deleting one that
      is not listed leaves the list as it was. */
  lemma DeleteCategoryKeepsNoDups(st: OrganizerState, cat: string, reloadUnauthorized: bool)
    requires NoDups(st.categories)
    ensures NoDups(DeleteCategory(st, cat, reloadUnauthorized).state.categories)
    ensures cat !in st.categories ==> DeleteCategory(st, cat, reloadUnauthorized).state.categories == st.categories
  {
    FilterNoDups(st.categories, IsNot(cat));
    if cat !in st.categories {
      FilterKeepsAll(st.categories, IsNot(cat));
    }
  }
}

=== FILE: search.dfy ===
/** The organiser page's list view: accent- and case-insensitive
    multi-word search and the status tabs. */
module Search {
  import opened Text
  import opened Seqs
  import opened Store

  /** The draft or list entry's image: none, a URL already on the server,
      or a local file still to be uploaded. */
  datatype DraftImage = NoImage | ImageUrl(url: string) | ImageFile(handle: nat)

  /** An item as the page holds it. */
  datatype ClientItem = ClientItem(id: string, name: string, category: string, status: string, image: DraftImage)

  function ClientId(it: ClientItem): string {
    it.id
  }

  /** The tab that ignores status. */
  const ALL: string := "All"

  /** The text a query is matched against: `${name} ${category}`,
      normalised. */
  function Haystack(item: ClientItem): string {
    Normalize(item.name + " " + item.category)
  }

  /** `matchesSearch`: a query that is empty once normalised and trimmed
      matches everything; otherwise every token of it must occur in the
      haystack. */
  predicate MatchesSearch(search: string, item: ClientItem)
    ensures AllSpace(Normalize(search)) ==> MatchesSearch(search, item)
  {
    BlankIffAllSpace(Normalize(search));
    var q := Trim(Normalize(search));
    q == [] || AllFound(Haystack(item), Tokens(q))
  }

  /** Every word occurs somewhere in the text. */
  predicate AllFound(haystack: string, words: seq<string>) {
    forall k :: 0 <= k < |words| ==> Contains(haystack, words[k])
  }

  /** The tab filter together with the search. */
  function Shown(status: string, search: string): ClientItem -> bool {
    (it: ClientItem) => (status == ALL || it.status == status) && MatchesSearch(search, it)
  }

  /** `filteredItems(status)`: the items of that tab that match the
      search, in list order; the "All" tab ignores status. */
  function FilteredItems(items: seq<ClientItem>, status: string, search: string): (r: seq<ClientItem>)
    ensures forall i :: 0 <= i < |r| ==> (status == ALL || r[i].status == status) && MatchesSearch(search, r[i])
    ensures forall i :: 0 <= i < |items| && (status == ALL || items[i].status == status) && MatchesSearch(search, items[i])
              ==> items[i] in r
    ensures IsSubsequence(r, items)
  {
    Filter(items, Shown(status, search))
  }

  // ----- properties of the search ------------------------------------------

  /** The search in one statement: a query matches exactly when every
      whitespace-separated word of the normalised query occurs in the
      normalised `name category` text; a query with no words matches all. */
  lemma MatchesSearchIffAllTokens(search: string, item: ClientItem)
    ensures MatchesSearch(search, item) <==> AllFound(Haystack(item), Tokens(Normalize(search)))
  {
    var n := Normalize(search);
    TokensOfTrim(n);
    if Trim(n) == [] {
      assert Tokens(n) == [];
    }
  }

  /** A query that normalises to white space alone leaves the "All" tab
      showing the whole list. */
  lemma BlankQueryShowsAll(items: seq<ClientItem>, search: string)
    requires AllSpace(Normalize(search))
    ensures FilteredItems(items, ALL, search) == items
  {
    BlankIffAllSpace(Normalize(search));
    FilterKeepsAll(items, Shown(ALL, search));
  }

  /** Case and combining marks in the query do not matter: searching for
      the normalised query gives the same answer. */
  lemma QueryNormalisationInvariant(search: string, item: ClientItem)
    ensures MatchesSearch(Normalize(search), item) == MatchesSearch(search, item)
  {
    NormalizeIdempotent(search);
  }

  /** The search ignores case: changing the case of ASCII letters in the
      query, in the item's name or in its category never changes whether
      the item matches. */
  lemma SearchIgnoresCase(q1: string, q2: string, item1: ClientItem, item2: ClientItem)
    requires SameIgnoringCase(q1, q2)
    requires SameIgnoringCase(item1.name, item2.name) && SameIgnoringCase(item1.category, item2.category)
    ensures MatchesSearch(q1, item1) <==> MatchesSearch(q2, item2)
  {
    NormalizeIgnoresCase(q1, q2);
    NormalizeIgnoresCase(item1.name, item2.name);
    NormalizeIgnoresCase(item1.category, item2.category);
    HaystackParts(item1);
    HaystackParts(item2);
  }

  /** The haystack is the normalised name and category around one space. */
  lemma HaystackParts(item: ClientItem)
    ensures Haystack(item) == Normalize(item.name) + " " + Normalize(item.category)
  {
    var n, c := item.name, item.category;
    assert n + " " + c == n + (" " + c);
    NormalizeAppend(n, " " + c);
    NormalizeAppend(" ", c);
    assert Normalize(" ") == " ";
  }

  /** Joining two queries with a space asks for both: the joined query
      matches exactly the items both parts match. */
  lemma JoinedQueryIsConjunction(a: string, b: string, item: ClientItem)
    ensures MatchesSearch(a + " " + b, item) <==> MatchesSearch(a, item) && MatchesSearch(b, item)
  {
    NormalizeAppend(a, " " + b);
    NormalizeAppend(" ", b);
    assert Normalize(" ") == " ";
    assert Normalize(a + " " + b) == Normalize(a) + [' '] + Normalize(b) by {
      assert a + " " + b == a + (" " + b);
    }
    TokensSplitAtSpace(Normalize(a), ' ', Normalize(b));
    MatchesSearchIffAllTokens(a + " " + b, item);
    MatchesSearchIffAllTokens(a, item);
    MatchesSearchIffAllTokens(b, item);
    AllFoundAppend(Haystack(item), Tokens(Normalize(a)), Tokens(Normalize(b)));
  }

  lemma AllFoundAppend(h: string, u: seq<string>, v: seq<string>)
    ensures AllFound(h, u + v) <==> AllFound(h, u) && AllFound(h, v)
  {
    if AllFound(h, u) && AllFound(h, v) {
      forall k | 0 <= k < |u + v|
        ensures Contains(h, (u + v)[k])
      {
        if k >= |u| {
          assert (u + v)[k] == v[k - |u|];
        }
      }
    }
    if AllFound(h, u + v) {
      forall k | 0 <= k < |u|
        ensures Contains(h, u[k])
      {
        assert (u + v)[k] == u[k];
      }
      forall k | 0 <= k < |v|
        ensures Contains(h, v[k])
      {
        assert (u + v)[|u| + k] == v[k];
      }
    }
  }

  /** Typing more words can only narrow a tab: every item shown for the
      longer query is shown, as often, for the shorter one. */
  lemma MoreWordsNarrow(items: seq<ClientItem>, status: string, a: string, b: string)
    ensures multiset(FilteredItems(items, status, a + " " + b)) <= multiset(FilteredItems(items, status, a))
  {
    forall x
      ensures multiset(FilteredItems(items, status, a + " " + b))[x] <= multiset(FilteredItems(items, status, a))[x]
    {
      FilterCount(items, Shown(status, a + " " + b), x);
      FilterCount(items, Shown(status, a), x);
      JoinedQueryIsConjunction(a, b, x);
    }
  }

  /** With every item carrying one of the three statuses, the three
      status tabs split the "All" tab between them. */
  lemma StatusTabsPartition(items: seq<ClientItem>, search: string)
    requires forall i :: 0 <= i < |items| ==> IsStatus(items[i].status)
    ensures multiset(FilteredItems(items, ALL, search))
            == multiset(FilteredItems(items, WASHED, search))
             + multiset(FilteredItems(items, UNWASHED, search))
             + multiset(FilteredItems(items, LOST_OR_UNUSED, search))
  {
    forall x
      ensures multiset(FilteredItems(items, ALL, search))[x]
              == multiset(FilteredItems(items, WASHED, search))[x]
               + multiset(FilteredItems(items, UNWASHED, search))[x]
               + multiset(FilteredItems(items, LOST_OR_UNUSED, search))[x]
    {
      FilterCount(items, Shown(ALL, search), x);
      FilterCount(items, Shown(WASHED, search), x);
      FilterCount(items, Shown(UNWASHED, search), x);
      FilterCount(items, Shown(LOST_OR_UNUSED, search), x);
      if !IsStatus(x.status) {
        assert x !in items;
        assert multiset(items)[x] == 0;
      }
    }
  }
}

=== FILE: seqs.dfy ===
/** Sequence helpers: `Array.prototype.filter`, `Array.from(new Set(xs))`,
    and the subsequence relation both of them keep. */
module Seqs {

  /** `r` is `s` with some elements left out and the rest in their
      original order. */
  predicate IsSubsequence<T(==)>(r: seq<T>, s: seq<T>)
    decreases |s|
  {
    if r == [] then true
    else if s == [] then false
    else if r[0] == s[0] then IsSubsequence(r[1..], s[1..])
    else IsSubsequence(r, s[1..])
  }

  lemma {:induction false} SubsequenceReflexive<T>(s: seq<T>)
    ensures IsSubsequence(s, s)
  {
    if s != [] {
      SubsequenceReflexive(s[1..]);
    }
  }

  predicate NoDups<T(==)>(s: seq<T>) {
    forall i, j :: 0 <= i < j < |s| ==> s[i] != s[j]
  }

  /** The filter "every element other than `v`". */
  function IsNot<T(==,!new)>(v: T): (f: T -> bool)
    ensures forall x :: f(x) <==> x != v
  {
    (x: T) => x != v
  }

  /** The filter "every element whose key is not `k`". */
  function KeyIsNot<T(!new), K(==)>(key: T -> K, k: K): (f: T -> bool)
    ensures forall x :: f(x) <==> key(x) != k
  {
    (x: T) => key(x) != k
  }

  /** `s.filter(p)`: exactly the elements satisfying `p`, each as often as
      in `s`, in their original order. */
  function Filter<T(==)>(s: seq<T>, p: T -> bool): (r: seq<T>)
    ensures forall i :: 0 <= i < |r| ==> p(r[i])
    ensures forall i :: 0 <= i < |s| && p(s[i]) ==> s[i] in r
    ensures IsSubsequence(r, s)
  {
    if s == [] then []
    else if p(s[0]) then
      [s[0]] + Filter(s[1..], p)
    else
      Filter(s[1..], p)
  }

  /** Every value passing `p` is kept as often as it occurs; every other
      value is dropped. */
  lemma {:induction false} FilterCount<T>(s: seq<T>, p: T -> bool, x: T)
    ensures multiset(Filter(s, p))[x] == if p(x) then multiset(s)[x] else 0
  {
    if s != [] {
      FilterCount(s[1..], p, x);
      assert s == [s[0]] + s[1..];
    }
  }

  /** A filter every element passes keeps the whole sequence. */
  lemma {:induction false} FilterKeepsAll<T>(s: seq<T>, p: T -> bool)
    requires forall i :: 0 <= i < |s| ==> p(s[i])
    ensures Filter(s, p) == s
  {
    if s != [] {
      FilterKeepsAll(s[1..], p);
      assert s == [s[0]] + s[1..];
    }
  }

  /** Removing the one element at `i` that fails `p` is filtering by `p`. */
  lemma {:induction false} RemoveOnlyFailing<T>(s: seq<T>, i: nat, p: T -> bool)
    requires i < |s| && !p(s[i])
    requires forall k :: 0 <= k < |s| && k != i ==> p(s[k])
    ensures Filter(s, p) == s[..i] + s[i + 1..]
    decreases i
  {
    var t := s[1..];
    if i == 0 {
      forall k | 0 <= k < |t| ensures p(t[k]) {
        assert t[k] == s[k + 1];
      }
      FilterKeepsAll(t, p);
    } else {
      forall k | 0 <= k < |t| && k != i - 1 ensures p(t[k]) {
        assert t[k] == s[k + 1];
      }
      RemoveOnlyFailing(t, i - 1, p);
      FilterStep(s, i, p);
    }
  }

  lemma FilterStep<T>(s: seq<T>, i: nat, p: T -> bool)
    requires 0 < i < |s| && p(s[0])
    requires Filter(s[1..], p) == s[1..][..i - 1] + s[1..][i..]
    ensures Filter(s, p) == s[..i] + s[i + 1..]
  {
    ConsOfSlices(s, i);
  }

  lemma ConsOfSlices<T>(s: seq<T>, i: nat)
    requires 0 < i < |s|
    ensures [s[0]] + (s[1..][..i - 1] + s[1..][i..]) == s[..i] + s[i + 1..]
  {
    assert s[1..][..i - 1] == s[1..i] && s[1..][i..] == s[i + 1..];
    assert s[..i] == [s[0]] + s[1..i];
  }

  lemma {:induction false} SubsequenceExtend<T>(r: seq<T>, s: seq<T>, x: T)
    requires IsSubsequence(r, s)
    ensures IsSubsequence(r + [x], s + [x])
    decreases |s|
  {
    if r == [] {
      SubsequenceOfSingleton(s, x);
      assert r + [x] == [x];
    } else {
      assert s != [];
      assert (r + [x])[0] == r[0] && (r + [x])[1..] == r[1..] + [x];
      assert (s + [x])[0] == s[0] && (s + [x])[1..] == s[1..] + [x];
      if r[0] == s[0] {
        SubsequenceExtend(r[1..], s[1..], x);
      } else {
        SubsequenceExtend(r, s[1..], x);
      }
    }
  }

  lemma {:induction false} SubsequenceOfSingleton<T>(s: seq<T>, x: T)
    ensures IsSubsequence([x], s + [x])
    decreases |s|
  {
    if s != [] {
      assert (s + [x])[1..] == s[1..] + [x];
      if s[0] == x {
        assert [x][1..] == [];
      } else {
        SubsequenceOfSingleton(s[1..], x);
      }
    } else {
      assert [x][1..] == [] && ([] + [x])[1..] == [];
    }
  }

  lemma {:induction false} SubsequenceOfPrefixIsSubsequence<T>(r: seq<T>, s: seq<T>, x: T)
    requires IsSubsequence(r, s)
    ensures IsSubsequence(r, s + [x])
    decreases |s|
  {
    if r != [] {
      assert (s + [x])[0] == s[0] && (s + [x])[1..] == s[1..] + [x];
      if r[0] == s[0] {
        SubsequenceOfPrefixIsSubsequence(r[1..], s[1..], x);
      } else {
        SubsequenceOfPrefixIsSubsequence(r, s[1..], x);
      }
    }
  }

  /** `Array.from(new Set(s))`: the first occurrence of every element, in
      order of first occurrence. */
  function Dedupe<T(==,!new)>(s: seq<T>): (r: seq<T>)
    ensures NoDups(r)
    ensures forall x :: x in r <==> x in s
    ensures IsSubsequence(r, s)
  {
    if s == [] then []
    else
      var d := Dedupe(s[..|s| - 1]);
      var x := s[|s| - 1];
      assert s == s[..|s| - 1] + [x];
      if x in d then
        SubsequenceOfPrefixIsSubsequence(d, s[..|s| - 1], x);
        d
      else
        SubsequenceExtend(d, s[..|s| - 1], x);
        d + [x]
  }

  /** Insertion order: a value already seen keeps its first place, and a
      new value goes to the end. Together with `Dedupe([]) == []` this
      fixes the result to the first occurrences in their original order. */
  lemma DedupeAppend<T(!new)>(s: seq<T>, x: T)
    ensures Dedupe(s + [x]) == if x in s then Dedupe(s) else Dedupe(s) + [x]
  {
    assert (s + [x])[..|s|] == s;
  }

  /** A list without duplicates comes out of the set unchanged. */
  lemma {:induction false} DedupeNoDups<T(!new)>(s: seq<T>)
    requires NoDups(s)
    ensures Dedupe(s) == s
  {
    if s != [] {
      var init := s[..|s| - 1];
      assert NoDups(init);
      DedupeNoDups(init);
      assert s[|s| - 1] !in init;
      assert s == init + [s[|s| - 1]];
    }
  }

  /** Adding a fresh element to a duplicate-free list through a set just
      appends it. */
  lemma DedupeAppendFresh<T(!new)>(s: seq<T>, x: T)
    requires NoDups(s) && x !in s
    ensures Dedupe(s + [x]) == s + [x]
  {
    assert NoDups(s + [x]);
    DedupeNoDups(s + [x]);
  }

  /** Filtering a duplicate-free list keeps it duplicate-free. */
  lemma {:induction false} FilterNoDups<T>(s: seq<T>, p: T -> bool)
    requires NoDups(s)
    ensures NoDups(Filter(s, p))
  {
    if s != [] {
      assert NoDups(s[1..]);
      FilterNoDups(s[1..], p);
      var t := Filter(s[1..], p);
      if p(s[0]) {
        assert s[0] !in s[1..];
        assert s[0] !in t by {
          FilterCount(s[1..], p, s[0]);
        }
        var r := [s[0]] + t;
        assert r == Filter(s, p);
        forall i, j | 0 <= i < j < |r|
          ensures r[i] != r[j]
        {
          if i > 0 {
            assert r[i] == t[i - 1] && r[j] == t[j - 1];
          } else {
            assert r[j] in t;
          }
        }
      }
    }
  }
}

=== FILE: server_properties.dfy ===
/** Properties that relate several server routes: idempotent category
    creation, create/delete round trips, and the image file lifecycle from
    upload to item deletion. */
module ServerProperties {
  import opened Wrappers
  import opened Seqs
  import opened Text
  import opened Store
  import opened Uploads
  import opened Items
  import opened Categories

  /** Posting the same category name twice answers the second time with
      200 and the record the first call returned, and stores nothing new. */
  lemma CreateCategoryIdempotent(st: Store, name: Option<string>, t1: int, t2: int)
    requires RequestedName(name) != []
    ensures var r1 := CreateCategory(st, name, t1);
            var r2 := CreateCategory(r1.store, name, t2);
            && r2.response.code == 200
            && r2.response.body == r1.response.body
            && r2.store == r1.store
  {
    var n := RequestedName(name);
    var r1 := CreateCategory(st, name, t1);
    if FindCategory(st.categories, n).None? {
      var c := r1.response.body.category;
      var cats := r1.store.categories;
      assert cats == st.categories + [c];
      var k := FindCategory(cats, n);
      assert cats[|cats| - 1].name == n;
      assert k.Some?;
      assert k.value == |st.categories|;
    }
  }

  /** Creating a new category and deleting it by the same name restores
      the category collection. */
  lemma CreateThenDeleteCategory(st: Store, name: Option<string>, now: int)
    requires Valid(st)
    requires RequestedName(name) != []
    requires FindCategory(st.categories, RequestedName(name)).None?
    ensures var r1 := CreateCategory(st, name, now);
            var r2 := DeleteCategory(r1.store, RequestedName(name));
            && r1.response.code == 201
            && r2.response.code == 204
            && r2.store.categories == st.categories
            && r2.store.items == st.items
  {
    var n := RequestedName(name);
    var r1 := CreateCategory(st, name, now);
    CreateCategoryPreservesValid(st, name, now);
    var cats := r1.store.categories;
    assert cats == st.categories + [cats[|st.categories|]];
    RemoveOnlyFailing(cats, |st.categories|, KeyIsNot(CategoryName, n));
    assert cats[..|st.categories|] == st.categories;
  }

  /** After a category is deleted, the listing no longer shows its name,
      while items filed under it keep the name. */
  lemma DeletedCategoryNotListed(st: Store, name: string)
    requires Valid(st)
    ensures var after := DeleteCategory(st, name).store;
            var listed := ListCategories(after).response.body.categories;
            && (forall i :: 0 <= i < |listed| ==> listed[i].name != name)
            && after.items == st.items
  {
    var after := DeleteCategory(st, name).store;
    var listed := ListCategories(after).response.body.categories;
    forall i | 0 <= i < |listed|
      ensures listed[i].name != name
    {
      assert listed[i] in multiset(after.categories);
      var k :| 0 <= k < |after.categories| && after.categories[k] == listed[i];
      assert KeyIsNot(CategoryName, name)(after.categories[k]);
    }
  }

  /** A created item shows up in the next listing. */
  lemma CreatedItemListed(st: Store, body: ItemFields, now: int)
    requires PassesItemSchema(body)
    ensures var r := CreateItem(st, body, now);
            r.response.body.item in ListItems(r.store).response.body.items
  {
    var r := CreateItem(st, body, now);
    var listed := ListItems(r.store).response.body.items;
    assert r.response.body.item in multiset(r.store.items);
    assert r.response.body.item in multiset(listed);
  }

  /** Creating an item and deleting it by its new id restores the item
      collection. */
  lemma CreateThenDeleteItem(st: Store, body: ItemFields, now: int, p: Platform, uploadDir: string)
    requires Valid(st)
    requires PassesItemSchema(body)
    requires BasenameShape(p) && ValidUploadDir(uploadDir) && uploadDir !in st.files
    ensures var r1 := CreateItem(st, body, now);
            var r2 := DeleteItem(r1.store, ObjectId(r1.response.body.item.id), p, uploadDir);
            && r1.response.code == 201
            && r2.response.code == 204
            && r2.store.items == st.items
            && r2.store.categories == st.categories
  {
    var r1 := CreateItem(st, body, now);
    var it := r1.response.body.item;
    var items := r1.store.items;
    assert items == st.items + [it];
    forall k | 0 <= k < |items| && k != |st.items|
      ensures KeyIsNot(ItemId, it.id)(items[k])
    {
      assert items[k] == st.items[k];
    }
    RemoveOnlyFailing(items, |st.items|, KeyIsNot(ItemId, it.id));
    assert items[..|st.items|] == st.items;
  }

  /** The platform properties the lifecycle lemma asks for can all be met
      at once, for any protocol and host: a parser that strips the origin,
      a `basename` that takes the name after "/uploads/", and an `extname`
      that finds no extension. */
  lemma LifecyclePlatformExists(protocol: string, host: string)
    ensures exists p: Platform :: BasenameShape(p) && ExtnameShape(p)
              && ReadsBackUploadUrls(p, protocol, host) && BasenameOfUploadPath(p)
  {
    var origin := protocol + "://" + host;
    var p: Platform := Platform(
      s => if StartsWith(s, origin) then Some(s[|origin|..]) else None,
      s => if StartsWith(s, "/uploads/") && '/' !in s[9..] then s[9..] else [],
      s => []);
    forall name | PlainName(name) && Unreserved(name)
      ensures p.urlPathname(PublicUrl(protocol, host, name)) == Some("/uploads/" + name)
    {
      var url := PublicUrl(protocol, host, name);
      assert url == origin + ("/uploads/" + name);
      assert url[..|origin|] == origin && url[|origin|..] == "/uploads/" + name;
    }
    forall name | PlainName(name)
      ensures p.basename("/uploads/" + name) == name
    {
      assert ("/uploads/" + name)[..9] == "/uploads/" && ("/uploads/" + name)[9..] == name;
    }
    assert BasenameShape(p) && ExtnameShape(p);
  }

  /** The image file lifecycle: a file uploaded and attached to a new item
      is stored inside the upload directory, and deleting the item removes
      exactly that file and the item, answering 204. This holds when the
      original file's extension has only unreserved characters, given a
      URL parser that reads such URLs back unchanged and a `basename`
      that takes the last segment. */
  lemma UploadThenDeleteRemovesFile(
    st: Store, p: Platform, uploadDir: string, f: UploadedFile,
    timestamp: nat, random: nat, protocol: string, host: string,
    itemName: string, category: string, now: int)
    requires Valid(st)
    requires BasenameShape(p) && ExtnameShape(p)
    requires ReadsBackUploadUrls(p, protocol, host) && BasenameOfUploadPath(p)
    requires ValidUploadDir(uploadDir) && uploadDir !in st.files
    requires f.fieldname == "image" && AcceptedImage(f) && f.size <= MAX_FILE_SIZE
    requires Unreserved(Extension(p, f.originalname))
    requires itemName != [] && category != []
    ensures var name := StoredName(timestamp, random, Extension(p, f.originalname));
            var path := uploadDir + "/" + name;
            var up := Upload(st, p, uploadDir, Some(f), timestamp, random, protocol, host);
            var body := ItemFields(Some(itemName), Some(category), None, ImageText(up.response.body.url));
            var cr := CreateItem(up.store, body, now);
            var del := DeleteItem(cr.store, ObjectId(cr.response.body.item.id), p, uploadDir);
            && up.response.code == 201 && cr.response.code == 201 && del.response.code == 204
            && path in cr.store.files
            && del.store.files == st.files - {path}
            && del.store.items == st.items
  {
    var name := StoredName(timestamp, random, Extension(p, f.originalname));
    var path := uploadDir + "/" + name;
    var up := Upload(st, p, uploadDir, Some(f), timestamp, random, protocol, host);
    var url := up.response.body.url;
    var body := ItemFields(Some(itemName), Some(category), None, ImageText(url));
    var cr := CreateItem(up.store, body, now);
    var it := cr.response.body.item;
    StoredNameUnreserved(timestamp, random, Extension(p, f.originalname));
    assert up.store.files == st.files + {path};
    assert uploadDir !in up.store.files by {
      assert |path| > |uploadDir|;
    }
    assert Valid(up.store);
    CreateThenDeleteItem(up.store, body, now, p, uploadDir);
    var i := FindItem(cr.store.items, it.id).value;
    assert i == |up.store.items|;
    assert HasImage(it);
    assert ImageFileName(p, url) == name;
    assert JoinUpload(uploadDir, name) == path;
  }

  /** The file is orphaned when the parser rewrites its name: with a space
      in the original extension (`"a.jp g"`), a parser that percent-encodes
      the space yields the basename `<name with %20>`, which names no
      stored file. The delete still answers 204 and removes the item, and
      the uploaded file stays in the directory. */
  lemma SpacedExtensionOrphansFile(
    st: Store, p: Platform, uploadDir: string, f: UploadedFile,
    timestamp: nat, random: nat, protocol: string, host: string,
    itemName: string, category: string, now: int)
    requires Valid(st)
    requires BasenameShape(p) && ExtnameShape(p) && BasenameOfUploadPath(p)
    requires ValidUploadDir(uploadDir) && uploadDir !in st.files
    requires f.fieldname == "image" && AcceptedImage(f) && f.size <= MAX_FILE_SIZE
    requires ' ' in Extension(p, f.originalname)
    requires var name := StoredName(timestamp, random, Extension(p, f.originalname));
             && p.urlPathname(PublicUrl(protocol, host, name)) == Some("/uploads/" + EncodeSpaces(name))
             && uploadDir + "/" + EncodeSpaces(name) !in st.files
    requires itemName != [] && category != []
    ensures var name := StoredName(timestamp, random, Extension(p, f.originalname));
            var path := uploadDir + "/" + name;
            var up := Upload(st, p, uploadDir, Some(f), timestamp, random, protocol, host);
            var body := ItemFields(Some(itemName), Some(category), None, ImageText(up.response.body.url));
            var cr := CreateItem(up.store, body, now);
            var del := DeleteItem(cr.store, ObjectId(cr.response.body.item.id), p, uploadDir);
            && up.response.code == 201 && cr.response.code == 201 && del.response.code == 204
            && del.store.items == st.items
            && path in del.store.files
            && del.store.files == st.files + {path}
  {
    var ext := Extension(p, f.originalname);
    var name := StoredName(timestamp, random, ext);
    var path := uploadDir + "/" + name;
    var up := Upload(st, p, uploadDir, Some(f), timestamp, random, protocol, host);
    var url := up.response.body.url;
    var body := ItemFields(Some(itemName), Some(category), None, ImageText(url));
    var cr := CreateItem(up.store, body, now);
    var it := cr.response.body.item;
    var encoded := EncodeSpaces(name);
    assert up.store.files == st.files + {path};
    assert uploadDir !in up.store.files by {
      assert |path| > |uploadDir|;
    }
    assert Valid(up.store);
    CreateThenDeleteItem(up.store, body, now, p, uploadDir);
    assert HasImage(it);
    EncodedStoredName(timestamp, random, ext, uploadDir);
    assert ImageFileName(p, url) == encoded;
    var i := FindItem(cr.store.items, it.id).value;
    assert i == |up.store.items|;
    assert ImagePath(p, uploadDir, url) !in cr.store.files;
  }

  /** Deleting an item removes at most the path derived from its own
      image URL: every other file is still there afterwards. */
  lemma DeleteItemSparesOtherFiles(st: Store, i: nat, p: Platform, uploadDir: string, file: string)
    requires Valid(st)
    requires BasenameShape(p) && ValidUploadDir(uploadDir) && uploadDir !in st.files
    requires i < |st.items| && file in st.files
    requires HasImage(st.items[i]) ==> file != ImagePath(p, uploadDir, st.items[i].imageUrl.value)
    ensures file in DeleteItem(st, ObjectId(st.items[i].id), p, uploadDir).store.files
  {
    assert FindItem(st.items, st.items[i].id) == Some(i);
  }

  /** The delete route does not check whether another item still points
      at the file: when two items carry the same image URL, deleting one
      answers 204, keeps the other item, and removes the file it shows. */
  lemma DeleteRemovesSharedImage(st: Store, i: nat, j: nat, p: Platform, uploadDir: string)
    requires Valid(st)
    requires BasenameShape(p) && ValidUploadDir(uploadDir) && uploadDir !in st.files
    requires i < |st.items| && j < |st.items| && i != j
    requires HasImage(st.items[i]) && st.items[j].imageUrl == st.items[i].imageUrl
    requires var path := ImagePath(p, uploadDir, st.items[i].imageUrl.value);
             InsideDir(uploadDir, path) && path in st.files
    ensures var del := DeleteItem(st, ObjectId(st.items[i].id), p, uploadDir);
            && del.response.code == 204
            && st.items[j] in del.store.items
            && ImagePath(p, uploadDir, st.items[j].imageUrl.value) !in del.store.files
  {
    var n := st.items[i].id;
    assert FindItem(st.items, n) == Some(i);
    assert KeyIsNot(ItemId, n)(st.items[j]);
  }
}

=== FILE: sorting.dfy ===
/** Sorting by a total preorder, the model of a database `sort({key: 1})`,
    and the byte-wise ascending order on strings the database uses for
    `sort({name: 1})`. */
module Sorting {

  /** `le` is a total preorder: any two values compare, and the comparison
      chains. */
  ghost predicate TotalPreorder<T(!new)>(le: (T, T) -> bool) {
    && (forall x, y :: le(x, y) || le(y, x))
    && (forall x, y, z :: le(x, y) && le(y, z) ==> le(x, z))
  }

  predicate SortedBy<T>(s: seq<T>, le: (T, T) -> bool) {
    forall i, j :: 0 <= i < j < |s| ==> le(s[i], s[j])
  }

  /** Places `x` into a sorted sequence. */
  function Insert<T(==,!new)>(x: T, s: seq<T>, le: (T, T) -> bool): (r: seq<T>)
    requires TotalPreorder(le)
    requires SortedBy(s, le)
    ensures SortedBy(r, le)
    ensures multiset(r) == multiset(s) + multiset{x}
  {
    if s == [] then [x]
    else if le(x, s[0]) then
      var r := [x] + s;
      assert SortedBy(r, le) by {
        forall i, j | 0 <= i < j < |r|
          ensures le(r[i], r[j])
        {
          if i == 0 && j > 1 {
            assert le(x, s[0]) && le(s[0], s[j - 1]);
          }
        }
      }
      r
    else
      var t := Insert(x, s[1..], le);
      assert s == [s[0]] + s[1..];
      var r := [s[0]] + t;
      assert SortedBy(r, le) by {
        forall j | 0 < j < |r|
          ensures le(s[0], r[j])
        {
          assert r[j] in multiset(t);
          assert r[j] == x || r[j] in s[1..];
        }
      }
      r
  }

  /** Insertion sort: a permutation of `s` in ascending order. */
  function SortBy<T(==,!new)>(s: seq<T>, le: (T, T) -> bool): (r: seq<T>)
    requires TotalPreorder(le)
    ensures SortedBy(r, le)
    ensures multiset(r) == multiset(s)
  {
    if s == [] then []
    else
      assert s == [s[0]] + s[1..];
      Insert(s[0], SortBy(s[1..], le), le)
  }

  // ----- byte-wise string order ----------------------------------------

  /** Ascending string order by code point, which coincides with the
      binary order of the UTF-8 encodings a database compares. */
  predicate LexLe(a: string, b: string) {
    if a == [] then true
    else if b == [] then false
    else if a[0] != b[0] then a[0] < b[0]
    else LexLe(a[1..], b[1..])
  }

  lemma {:induction false} LexLeTotal(a: string, b: string)
    ensures LexLe(a, b) || LexLe(b, a)
  {
    if a != [] && b != [] && a[0] == b[0] {
      LexLeTotal(a[1..], b[1..]);
    }
  }

  lemma {:induction false} LexLeTransitive(a: string, b: string, c: string)
    requires LexLe(a, b) && LexLe(b, c)
    ensures LexLe(a, c)
  {
    if a != [] && b != [] && c != [] && a[0] == b[0] && b[0] == c[0] {
      LexLeTransitive(a[1..], b[1..], c[1..]);
    }
  }
}

=== FILE: store.dfy ===
/** The server's persistent state and its HTTP-level results: the Item and
    Category collections, the files of the upload directory, and the
    status code and JSON body every route answers with. */
module Store {
  import opened Wrappers
  import opened Seqs

  // ----- the Item schema -------------------------------------------------

  const WASHED: string := "Washed"
  const UNWASHED: string := "Unwashed"
  const LOST_OR_UNUSED: string := "Lost/Unused"

  /** The values the Item schema's `status` enum admits. */
  predicate IsStatus(s: string) {
    s == WASHED || s == UNWASHED || s == LOST_OR_UNUSED
  }

  /** A stored Item document. `id` stands for the database's ObjectId;
      `status` is a plain string because updates skip schema validation. */
  datatype Item = Item(
    id: nat,
    name: string,
    category: string,
    status: string,
    imageUrl: Option<string>,
    createdAt: int,
    updatedAt: int)

  /** A stored Category document; `name` carries a unique index. */
  datatype Category = Category(id: nat, name: string, createdAt: int, updatedAt: int)

  /** The database plus the regular files present in the upload
      directory (full paths). `nextId` is the source of fresh ids. */
  datatype Store = Store(
    items: seq<Item>,
    categories: seq<Category>,
    nextId: nat,
    files: set<string>)

  /** The store's integrity: item ids and category ids are unique and
      below `nextId`, and category names are unique. */
  predicate Valid(st: Store) {
    && (forall i, j :: 0 <= i < j < |st.items| ==> st.items[i].id != st.items[j].id)
    && (forall i :: 0 <= i < |st.items| ==> st.items[i].id < st.nextId)
    && UniqueNames(st.categories)
    && (forall i, j :: 0 <= i < j < |st.categories| ==> st.categories[i].id != st.categories[j].id)
    && (forall i :: 0 <= i < |st.categories| ==> st.categories[i].id < st.nextId)
  }

  /** No two categories share a name. */
  predicate UniqueNames(cats: seq<Category>) {
    forall i, j :: 0 <= i < j < |cats| ==> cats[i].name != cats[j].name
  }

  // ----- requests --------------------------------------------------------

  /** The `:id` path parameter: a string the database can cast to an
      ObjectId, or one it cannot. */
  datatype IdParam = ObjectId(n: nat) | NotAnObjectId

  /** The `imageUrl` key of a JSON body: missing, `null`, or a string. */
  datatype ImageField = ImageAbsent | ImageNull | ImageText(url: string)

  /** The schema fields of an item request body; `None` is a missing key. */
  datatype ItemFields = ItemFields(
    name: Option<string>,
    category: Option<string>,
    status: Option<string>,
    imageUrl: ImageField)

  // ----- responses -------------------------------------------------------

  datatype Body =
    | NoContent
    | ErrorBody(message: string)
    | ItemDoc(item: Item)
    | ItemList(items: seq<Item>)
    | CategoryDoc(category: Category)
    | CategoryList(categories: seq<Category>)
    | UrlDoc(url: string)

  datatype Response = Response(code: nat, body: Body)

  /** What a route hands back: the response and the state after it. */
  datatype Outcome = Outcome(response: Response, store: Store)

  /** The top-level error handler's answer to anything passed to `next`. */
  const INTERNAL_ERROR: Response := Response(500, ErrorBody("Internal Server Error"))

  // ----- lookups ---------------------------------------------------------

  /** Position of the first element satisfying `p`. */
  function FindFirst<T>(s: seq<T>, p: T -> bool): (r: Option<nat>)
    ensures r.None? <==> forall k :: 0 <= k < |s| ==> !p(s[k])
    ensures r.Some? ==> r.value < |s| && p(s[r.value])
    ensures r.Some? ==> forall k :: 0 <= k < r.value ==> !p(s[k])
  {
    if s == [] then None
    else if p(s[0]) then Some(0)
    else match FindFirst(s[1..], p)
      case None => None
      case Some(k) => Some(k + 1)
  }

  /** Position of the first item with the given id. */
  function FindItem(items: seq<Item>, id: nat): (r: Option<nat>)
    ensures r.None? <==> forall k :: 0 <= k < |items| ==> items[k].id != id
    ensures r.Some? ==> r.value < |items| && items[r.value].id == id
    ensures r.Some? ==> forall k :: 0 <= k < r.value ==> items[k].id != id
  {
    FindFirst(items, (it: Item) => it.id == id)
  }

  /** Position of the first category with the given name. */
  function FindCategory(cats: seq<Category>, name: string): (r: Option<nat>)
    ensures r.None? <==> forall k :: 0 <= k < |cats| ==> cats[k].name != name
    ensures r.Some? ==> r.value < |cats| && cats[r.value].name == name
    ensures r.Some? ==> forall k :: 0 <= k < r.value ==> cats[k].name != name
  {
    FindFirst(cats, (c: Category) => c.name == name)
  }

  function ItemId(it: Item): nat {
    it.id
  }

  function CategoryName(c: Category): string {
    c.name
  }

  /** `s` without its element at position `i`. */
  function RemoveAt<T>(s: seq<T>, i: nat): (r: seq<T>)
    requires i < |s|
    ensures |r| == |s| - 1
    ensures forall k :: 0 <= k < i ==> r[k] == s[k]
    ensures forall k :: i <= k < |r| ==> r[k] == s[k + 1]
  {
    s[..i] + s[i + 1..]
  }

  /** When no two elements share a key, removing the element at `i` is
      filtering out its key. */
  lemma RemoveAtIsFilter<T(!new), K>(s: seq<T>, key: T -> K, i: nat)
    requires i < |s|
    ensures (forall a, b :: 0 <= a < b < |s| ==> key(s[a]) != key(s[b])) ==>
              RemoveAt(s, i) == Filter(s, KeyIsNot(key, key(s[i])))
  {
    if forall a, b :: 0 <= a < b < |s| ==> key(s[a]) != key(s[b]) {
      RemoveOnlyFailing(s, i, KeyIsNot(key, key(s[i])));
    }
  }

  /** Removing one category keeps the store valid. */
  lemma RemoveCategoryKeepsValid(st: Store, i: nat)
    requires Valid(st) && i < |st.categories|
    ensures Valid(st.(categories := RemoveAt(st.categories, i)))
  {
    var cats := RemoveAt(st.categories, i);
    forall a, b | 0 <= a < b < |cats|
      ensures cats[a].name != cats[b].name && cats[a].id != cats[b].id
    {
      var a' := if a < i then a else a + 1;
      var b' := if b < i then b else b + 1;
      assert cats[a] == st.categories[a'] && cats[b] == st.categories[b'];
    }
  }

  /** Removing one item keeps the store valid. */
  lemma RemoveItemKeepsValid(st: Store, i: nat, files: set<string>)
    requires Valid(st) && i < |st.items|
    ensures Valid(st.(items := RemoveAt(st.items, i), files := files))
  {
    var items := RemoveAt(st.items, i);
    forall a, b | 0 <= a < b < |items|
      ensures items[a].id != items[b].id
    {
      var a' := if a < i then a else a + 1;
      var b' := if b < i then b else b + 1;
      assert items[a] == st.items[a'] && items[b] == st.items[b'];
    }
  }
}

=== FILE: text.dfy ===
/** String helpers shared by the server routes and the client list logic:
    JavaScript whitespace, `trim`, `startsWith`, `includes`, the `\s+`
    tokeniser of the search box, the search normaliser and decimal
    rendering of numbers. */
module Text {

  /** The characters JavaScript's `String.prototype.trim` and the regular
      expression class `\s` treat as white space (WhiteSpace and
      LineTerminator of ECMAScript). */
  predicate IsSpace(c: char) {
    || c == ' ' || c == '\t' || c == '\n' || c == '\r'
    || c == '\U{000B}' || c == '\U{000C}'
    || c == '\U{00A0}' || c == '\U{1680}'
    || ('\U{2000}' <= c <= '\U{200A}')
    || c == '\U{2028}' || c == '\U{2029}' || c == '\U{202F}'
    || c == '\U{205F}' || c == '\U{3000}' || c == '\U{FEFF}'
  }

  predicate AllSpace(s: string) {
    forall i :: 0 <= i < |s| ==> IsSpace(s[i])
  }

  predicate NoSpace(s: string) {
    forall i :: 0 <= i < |s| ==> !IsSpace(s[i])
  }

  /** The number of white-space characters `s` starts with. */
  function LeadingSpace(s: string): (n: nat)
    ensures n <= |s| && AllSpace(s[..n])
    ensures n == |s| || !IsSpace(s[n])
  {
    if s == [] || !IsSpace(s[0]) then 0
    else
      var n := 1 + LeadingSpace(s[1..]);
      assert s[..n] == [s[0]] + s[1..][..n - 1];
      n
  }

  /** The number of white-space characters `s` ends with. */
  function TrailingSpace(s: string): (n: nat)
    ensures n <= |s| && AllSpace(s[|s| - n..])
    ensures n == |s| || !IsSpace(s[|s| - n - 1])
  {
    if s == [] || !IsSpace(s[|s| - 1]) then 0
    else
      var init := s[..|s| - 1];
      var n := 1 + TrailingSpace(init);
      assert s[|s| - n..] == init[|init| - (n - 1)..] + [s[|s| - 1]];
      n
  }

  /** `s.trim()`: nothing is left of a string of white space alone;
      otherwise the result is the slice of `s` between its leading and
      its trailing white space, and neither starts nor ends with white
      space. */
  function Trim(s: string): (r: string)
    ensures r == [] <==> AllSpace(s)
    ensures r != [] ==>
              && LeadingSpace(s) + TrailingSpace(s) < |s|
              && r == s[LeadingSpace(s)..|s| - TrailingSpace(s)]
    ensures r == [] || (!IsSpace(r[0]) && !IsSpace(r[|r| - 1]))
  {
    var i := LeadingSpace(s);
    if i == |s| then
      assert s[..i] == s;
      []
    else
      SpaceRunsDisjoint(s);
      s[i..|s| - TrailingSpace(s)]
  }

  /** In a string that is not all white space, the leading and trailing
      runs of white space do not meet. */
  lemma SpaceRunsDisjoint(s: string)
    requires LeadingSpace(s) < |s|
    ensures LeadingSpace(s) + TrailingSpace(s) < |s|
    ensures !AllSpace(s)
  {
    var i := LeadingSpace(s);
    var t := TrailingSpace(s);
    forall k | |s| - t <= k < |s|
      ensures IsSpace(s[k])
    {
      assert s[|s| - t..][k - (|s| - t)] == s[k];
    }
    assert !IsSpace(s[i]);
  }

  /** A string is blank when trimming leaves nothing: the JavaScript test
      `s.trim() === ""`, or `!s.trim()`. */
  predicate IsBlank(s: string) {
    Trim(s) == []
  }

  lemma BlankIffAllSpace(s: string)
    ensures IsBlank(s) <==> AllSpace(s)
  {
  }

  /** Trimming an already trimmed string changes nothing. */
  lemma TrimIdempotent(s: string)
    ensures Trim(Trim(s)) == Trim(s)
  {
    var r := Trim(s);
    if r != [] {
      assert LeadingSpace(r) == 0;
      assert TrailingSpace(r) == 0;
      assert r[0..|r|] == r;
    }
  }

  predicate StartsWith(s: string, prefix: string) {
    |prefix| <= |s| && s[..|prefix|] == prefix
  }

  /** `haystack.includes(needle)`. */
  predicate Contains(haystack: string, needle: string) {
    exists i :: 0 <= i <= |haystack| && StartsWith(haystack[i..], needle)
  }

  // ----- tokenising on /\s+/ -------------------------------------------

  /** The longest prefix of `s` free of white space. */
  function Word(s: string): (w: string)
    ensures |w| <= |s| && w == s[..|w|]
    ensures NoSpace(w)
    ensures |w| == |s| || IsSpace(s[|w|])
  {
    if s == [] || IsSpace(s[0]) then [] else [s[0]] + Word(s[1..])
  }

  /** `s.split(/\s+/).filter(Boolean)`: the maximal runs of non-space
      characters, in order. */
  function Tokens(s: string): (ts: seq<string>)
    ensures forall k :: 0 <= k < |ts| ==> ts[k] != [] && NoSpace(ts[k])
    ensures ts == [] <==> AllSpace(s)
    decreases |s|
  {
    if s == [] then []
    else if IsSpace(s[0]) then Tokens(s[1..])
    else
      var w := Word(s);
      [w] + Tokens(s[|w|..])
  }

  /** Joins words with one space; the reference against which `Tokens`
      is checked. */
  function JoinWords(ws: seq<string>): string {
    if ws == [] then [] else if |ws| == 1 then ws[0] else ws[0] + " " + JoinWords(ws[1..])
  }

  lemma {:induction false} WordOfSpaceSeparated(w: string, rest: string)
    requires NoSpace(w)
    requires rest == [] || IsSpace(rest[0])
    ensures Word(w + rest) == w
    decreases |w|
  {
    if w != [] {
      assert (w + rest)[1..] == w[1..] + rest;
      WordOfSpaceSeparated(w[1..], rest);
    }
  }

  /** Tokenising joined words gives the words back. */
  lemma {:induction false} TokensOfJoin(ws: seq<string>)
    requires forall k :: 0 <= k < |ws| ==> ws[k] != [] && NoSpace(ws[k])
    ensures Tokens(JoinWords(ws)) == ws
  {
    if ws == [] {
    } else if |ws| == 1 {
      WordOfSpaceSeparated(ws[0], []);
      assert ws[0] + [] == ws[0];
      assert ws[0][|ws[0]|..] == [];
    } else {
      var rest := " " + JoinWords(ws[1..]);
      WordOfSpaceSeparated(ws[0], rest);
      assert JoinWords(ws) == ws[0] + rest;
      assert JoinWords(ws)[|ws[0]|..] == rest;
      assert rest[1..] == JoinWords(ws[1..]);
      TokensOfJoin(ws[1..]);
    }
  }

  /** A white-space character splits the token list in two. */
  lemma {:induction false} TokensSplitAtSpace(a: string, c: char, b: string)
    requires IsSpace(c)
    ensures Tokens(a + [c] + b) == Tokens(a) + Tokens(b)
    decreases |a|
  {
    var s := a + [c] + b;
    if a == [] {
      JoinedAfterPrefix(a, [], c, b);
    } else if IsSpace(a[0]) {
      JoinedAfterPrefix(a, a[..1], c, b);
      TokensSplitAtSpace(a[1..], c, b);
    } else {
      var w := Word(a);
      var rest := a[|w|..];
      JoinedAfterPrefix(a, w, c, b);
      WordOfSpaceSeparated(w, rest + [c] + b);
      TokensSplitAtSpace(rest, c, b);
      AppendAssoc([w], Tokens(rest), Tokens(b));
    }
  }

  /** Slicing `a + [c] + b` after a prefix `w` of `a`. */
  lemma JoinedAfterPrefix<T>(a: seq<T>, w: seq<T>, c: T, b: seq<T>)
    requires |w| <= |a| && w == a[..|w|]
    ensures a == w + a[|w|..]
    ensures a + [c] + b == w + (a[|w|..] + [c] + b)
    ensures (a + [c] + b)[|w|..] == a[|w|..] + [c] + b
    ensures a != [] ==> (a + [c] + b)[0] == a[0]
    ensures (a[|w|..] + [c] + b)[0] == if |w| == |a| then c else a[|w|]
  {
  }

  lemma AppendAssoc<T>(x: seq<T>, y: seq<T>, z: seq<T>)
    ensures x + (y + z) == (x + y) + z
  {
  }

  lemma {:induction false} TokensOfAllSpace(s: string)
    requires AllSpace(s)
    ensures Tokens(s) == []
    decreases |s|
  {
    if s != [] {
      TokensOfAllSpace(s[1..]);
    }
  }

  lemma {:induction false} TokensSkipLeadingSpace(sp: string, s: string)
    requires AllSpace(sp)
    ensures Tokens(sp + s) == Tokens(s)
    decreases |sp|
  {
    if sp != [] {
      var t := sp + s;
      assert t != [] && IsSpace(t[0]);
      assert t[1..] == sp[1..] + s;
      assert Tokens(t) == Tokens(t[1..]);
      TokensSkipLeadingSpace(sp[1..], s);
    } else {
      assert sp + s == s;
    }
  }

  lemma TokensSkipTrailingSpace(s: string, sp: string)
    requires AllSpace(sp)
    ensures Tokens(s + sp) == Tokens(s)
  {
    if sp != [] {
      assert s + sp == s + [sp[0]] + sp[1..];
      TokensSplitAtSpace(s, sp[0], sp[1..]);
      TokensOfAllSpace(sp[1..]);
    } else {
      assert s + sp == s;
    }
  }

  /** Trimming before splitting on `\s+` does not change the tokens, and
      the trimmed string is empty exactly when there are no tokens. */
  lemma TokensOfTrim(s: string)
    ensures Tokens(Trim(s)) == Tokens(s)
    ensures Trim(s) == [] <==> Tokens(s) == []
  {
    var r := Trim(s);
    if r == [] {
      TokensOfAllSpace(s);
    } else {
      var i := LeadingSpace(s);
      var j := |s| - TrailingSpace(s);
      assert s == s[..i] + (r + s[j..]);
      TokensSkipLeadingSpace(s[..i], r + s[j..]);
      TokensSkipTrailingSpace(r, s[j..]);
      assert !IsSpace(r[0]);
      assert Tokens(r) == [Word(r)] + Tokens(r[|Word(r)|..]);
    }
  }

  // ----- the search normaliser -----------------------------------------

  /** Lower-cases one character (the ASCII letters). */
  function LowerChar(c: char): (d: char)
    ensures 'A' <= c <= 'Z' ==> d as int == c as int + 32
    ensures !('A' <= c <= 'Z') ==> d == c
  {
    if 'A' <= c <= 'Z' then (c as int + 32) as char else c
  }

  /** A combining diacritical mark (U+0300 to U+036F), the class the
      source strips after NFD decomposition. */
  predicate IsCombiningMark(c: char) {
    '\U{0300}' <= c <= '\U{036F}'
  }

  /** `toLowerCase()` followed by removal of combining marks. */
  function Normalize(s: string): (r: string)
    ensures |r| <= |s|
    ensures forall i :: 0 <= i < |r| ==> !IsCombiningMark(r[i]) && !('A' <= r[i] <= 'Z')
    ensures |s| == 1 ==> r == if IsCombiningMark(s[0]) then [] else [LowerChar(s[0])]
  {
    if s == [] then []
    else
      var rest := Normalize(s[1..]);
      if IsCombiningMark(s[0]) then rest else [LowerChar(s[0])] + rest
  }

  lemma {:induction false} NormalizeAppend(a: string, b: string)
    ensures Normalize(a + b) == Normalize(a) + Normalize(b)
    decreases |a|
  {
    if a != [] {
      var t := a + b;
      assert t != [] && t[0] == a[0];
      assert t[1..] == a[1..] + b;
      NormalizeAppend(a[1..], b);
      assert Normalize(t) == if IsCombiningMark(a[0]) then Normalize(t[1..]) else [LowerChar(a[0])] + Normalize(t[1..]);
    } else {
      assert a + b == b;
    }
  }

  /** Normalising twice is normalising once. */
  lemma {:induction false} NormalizeIdempotent(s: string)
    ensures Normalize(Normalize(s)) == Normalize(s)
    decreases |s|
  {
    if s != [] {
      NormalizeIdempotent(s[1..]);
      var rest := Normalize(s[1..]);
      if !IsCombiningMark(s[0]) {
        NormalizeAppend([LowerChar(s[0])], rest);
      }
    }
  }

  /** `a` and `b` differ at most in the case of ASCII letters. */
  predicate SameIgnoringCase(a: string, b: string) {
    |a| == |b| && forall i :: 0 <= i < |a| ==> LowerChar(a[i]) == LowerChar(b[i])
  }

  /** Lower-casing never moves a character into or out of the combining
      marks. */
  lemma LowerCharKeepsMarks(c: char)
    ensures IsCombiningMark(LowerChar(c)) <==> IsCombiningMark(c)
  {
  }

  /** The normaliser ignores case: strings that differ only in the case of
      ASCII letters normalise to the same text. */
  lemma {:induction false} NormalizeIgnoresCase(a: string, b: string)
    requires SameIgnoringCase(a, b)
    ensures Normalize(a) == Normalize(b)
    decreases |a|
  {
    if a != [] {
      assert SameIgnoringCase(a[1..], b[1..]) by {
        forall i | 0 <= i < |a| - 1
          ensures LowerChar(a[1..][i]) == LowerChar(b[1..][i])
        {
          assert a[1..][i] == a[i + 1] && b[1..][i] == b[i + 1];
        }
      }
      NormalizeIgnoresCase(a[1..], b[1..]);
      LowerCharKeepsMarks(a[0]);
      LowerCharKeepsMarks(b[0]);
      assert LowerChar(a[0]) == LowerChar(b[0]);
    }
  }

  // ----- decimal numbers ------------------------------------------------

  predicate IsDigit(c: char) {
    '0' <= c <= '9'
  }

  function DigitValue(c: char): (d: nat)
    requires IsDigit(c)
    ensures d < 10
  {
    c as int - '0' as int
  }

  function DigitChar(d: nat): (c: char)
    requires d < 10
    ensures IsDigit(c) && DigitValue(c) == d
  {
    ('0' as int + d) as char
  }

  /** The decimal rendering JavaScript gives a non-negative integer. */
  function NatToString(n: nat): (s: string)
    ensures s != []
    ensures forall i :: 0 <= i < |s| ==> IsDigit(s[i])
  {
    if n < 10 then [DigitChar(n)] else NatToString(n / 10) + [DigitChar(n % 10)]
  }

  /** Reads a run of decimal digits. */
  function ParseDigits(s: string): nat
    requires forall i :: 0 <= i < |s| ==> IsDigit(s[i])
  {
    if s == [] then 0 else 10 * ParseDigits(s[..|s| - 1]) + DigitValue(s[|s| - 1])
  }

  lemma {:induction false} ParseNatToString(n: nat)
    ensures ParseDigits(NatToString(n)) == n
  {
    if n >= 10 {
      var s := NatToString(n);
      assert s[..|s| - 1] == NatToString(n / 10);
      ParseNatToString(n / 10);
    }
  }
}

=== FILE: uploads.dfy ===
/** The local-disk image assets: the upload route's filter, naming and URL,
    and the best-effort removal of an item's image file when the item is
    deleted. */
module Uploads {
  import opened Wrappers
  import opened Text
  import opened Store

  /** The parts of Node and the WHATWG URL parser the routes rely on,
      left abstract: `urlPathname(s)` is `new URL(s).pathname`, or `None`
      when the constructor throws; `basename` and `extname` are
      `path.basename` and `path.extname`. */
  datatype Platform = Platform(
    urlPathname: string -> Option<string>,
    basename: string -> string,
    extname: string -> string)

  /** `path.basename` never yields a string containing a separator. */
  ghost predicate BasenameShape(p: Platform) {
    forall s :: '/' !in p.basename(s)
  }

  /** `path.extname` yields "" or a dot followed by no separator. */
  ghost predicate ExtnameShape(p: Platform) {
    forall s :: p.extname(s) == [] || (p.extname(s)[0] == '.' && '/' !in p.extname(s))
  }

  /** The parser reads the URL of an uploaded file whose name is plain and
      has only unreserved characters back as `/uploads/<name>`. The WHATWG
      URL standard copies those characters into the path unchanged. The
      names it would change are all left out: it percent-encodes a space,
      `"`, `<`, `>`, a backquote, `{`, `}` and every non-ASCII character,
      cuts the path at `?` and `#`, strips a trailing space, removes ASCII
      tab and newline characters, reads `\` as `/` in special schemes, and
      resolves the dot segments "." and "..". */
  ghost predicate ReadsBackUploadUrls(p: Platform, protocol: string, host: string) {
    forall name :: PlainName(name) && Unreserved(name) ==> p.urlPathname(PublicUrl(protocol, host, name)) == Some("/uploads/" + name)
  }

  /** `path.basename("/uploads/<name>")` is `name` for a plain name. */
  ghost predicate BasenameOfUploadPath(p: Platform) {
    forall name :: PlainName(name) ==> p.basename("/uploads/" + name) == name
  }

  /** An unreserved character in the sense of section 2.3 of RFC 3986: an
      ASCII letter or digit, `-`, `.`, `_` or `~`. */
  predicate UnreservedChar(c: char) {
    'a' <= c <= 'z' || 'A' <= c <= 'Z' || '0' <= c <= '9' || c == '-' || c == '.' || c == '_' || c == '~'
  }

  predicate Unreserved(s: string) {
    forall i :: 0 <= i < |s| ==> UnreservedChar(s[i])
  }

  /** The upload directory is an absolute, normalised path, as
      `path.join(process.cwd(), 'uploads')` gives: no trailing separator,
      and no empty, "." or ".." segment. */
  predicate ValidUploadDir(dir: string) {
    && |dir| >= 2 && dir[0] == '/' && dir[|dir| - 1] != '/'
    && forall i :: 0 <= i < |dir| - 1 && dir[i] == '/' ==> dir[i + 1] != '/' && !DotSegmentAt(dir, i + 1)
  }

  /** The segment of `s` that starts at `j` is "." or "..". */
  predicate DotSegmentAt(s: string, j: nat)
    requires j <= |s|
  {
    || (j + 1 <= |s| && s[j] == '.' && (j + 1 == |s| || s[j + 1] == '/'))
    || (j + 2 <= |s| && s[j] == '.' && s[j + 1] == '.' && (j + 2 == |s| || s[j + 2] == '/'))
  }

  // ----- paths -----------------------------------------------------------

  /** A file name that names an entry below a directory rather than the
      directory itself or its parent. */
  predicate PlainName(name: string) {
    name != [] && name != "." && name != ".." && '/' !in name
  }

  /** `f` names an entry directly inside `dir`. */
  predicate InsideDir(dir: string, f: string) {
    StartsWith(f, dir + "/") && PlainName(f[|dir| + 1..])
  }

  /** Everything before the last separator; "/" for a top-level path. */
  function ParentDir(dir: string): (r: string)
    requires ValidUploadDir(dir)
    ensures |r| < |dir|
  {
    var stripped := DropLastSegment(dir);
    if stripped == [] then "/" else stripped
  }

  function DropLastSegment(s: string): (r: string)
    ensures |r| < |s| || s == []
  {
    if s == [] then []
    else if s[|s| - 1] == '/' then s[..|s| - 1]
    else DropLastSegment(s[..|s| - 1])
  }

  /** `path.join(dir, name)` for a name without separators: the empty name
      and "." resolve to the directory itself, ".." to its parent. */
  function JoinUpload(dir: string, name: string): (r: string)
    requires ValidUploadDir(dir)
    requires '/' !in name
    ensures PlainName(name) ==> r == dir + "/" + name && InsideDir(dir, r)
    ensures name == [] || name == "." ==> r == dir
    ensures !PlainName(name) ==> !InsideDir(dir, r)
    ensures name == ".." ==> !StartsWith(r, dir)
  {
    if name == [] || name == "." then dir
    else if name == ".." then ParentDir(dir)
    else
      var r := dir + "/" + name;
      assert r[|dir| + 1..] == name;
      r
  }

  // ----- the upload route ------------------------------------------------

  /** multer's `limits.fileSize`: 5 MiB. */
  const MAX_FILE_SIZE: nat := 5 * 1024 * 1024

  /** One file part of a multipart request as multer sees it. */
  datatype UploadedFile = UploadedFile(
    fieldname: string,
    originalname: string,
    mimetype: string,
    size: nat)

  /** What multer's `fileFilter` admits. */
  predicate AcceptedImage(f: UploadedFile) {
    StartsWith(f.mimetype, "image/")
  }

  /** The original extension, or ".jpg" when there is none. */
  function Extension(p: Platform, originalname: string): (ext: string)
    ensures p.extname(originalname) != [] ==> ext == p.extname(originalname)
    ensures p.extname(originalname) == [] ==> ext == ".jpg"
    ensures ExtnameShape(p) ==> ext[0] == '.' && '/' !in ext
  {
    var e := p.extname(originalname);
    if e == [] then ".jpg" else e
  }

  /** The stored file name `<timestamp>-<random><ext>`, where `timestamp`
      is `Date.now()` and `random` is `Math.round(Math.random() * 1e9)`. */
  function StoredName(timestamp: nat, random: nat, ext: string): (name: string)
    ensures |name| > |ext| && IsDigit(name[0])
    ensures '/' !in ext ==> PlainName(name)
  {
    NatToString(timestamp) + "-" + NatToString(random) + ext
  }

  /** The public URL of a stored file. */
  function PublicUrl(protocol: string, host: string, filename: string): string {
    protocol + "://" + host + "/uploads/" + filename
  }

  /** `POST /api/upload` with `upload.single('image')`. A request without a
      file is a 400; a wrong field name, a non-image type or an oversized
      file is a multer error, which reaches the generic 500 handler before
      anything is stored. Otherwise the file lands in the upload directory
      under a generated name and the answer is 201 with its URL. */
  function Upload(
    st: Store, p: Platform, uploadDir: string, file: Option<UploadedFile>,
    timestamp: nat, random: nat, protocol: string, host: string): (r: Outcome)
    requires ValidUploadDir(uploadDir)
    requires ExtnameShape(p)
    ensures file.None? ==> r == Outcome(Response(400, ErrorBody("image file required")), st)
    ensures (file.Some? && (file.value.fieldname != "image" || !AcceptedImage(file.value) || file.value.size > MAX_FILE_SIZE))
              ==> r == Outcome(INTERNAL_ERROR, st)
    ensures r.response.code == 201 <==>
              file.Some? && file.value.fieldname == "image" && AcceptedImage(file.value) && file.value.size <= MAX_FILE_SIZE
    ensures r.response.code == 201 ==>
              var name := StoredName(timestamp, random, Extension(p, file.value.originalname));
              && PlainName(name)
              && r.response.body == UrlDoc(PublicUrl(protocol, host, name))
              && r.store == st.(files := st.files + {uploadDir + "/" + name})
              && InsideDir(uploadDir, uploadDir + "/" + name)
  {
    match file
    case None => Outcome(Response(400, ErrorBody("image file required")), st)
    case Some(f) =>
      if f.fieldname != "image" || !AcceptedImage(f) || f.size > MAX_FILE_SIZE then
        Outcome(INTERNAL_ERROR, st)
      else
        var name := StoredName(timestamp, random, Extension(p, f.originalname));
        var path := JoinUpload(uploadDir, name);
        Outcome(Response(201, UrlDoc(PublicUrl(protocol, host, name))), st.(files := st.files + {path}))
  }

  /** A stored name is unreserved exactly when its extension is: the
      timestamp, the dash and the random value always are. */
  lemma StoredNameUnreserved(timestamp: nat, random: nat, ext: string)
    ensures Unreserved(StoredName(timestamp, random, ext)) <==> Unreserved(ext)
  {
    var t, r := NatToString(timestamp), NatToString(random);
    var name := StoredName(timestamp, random, ext);
    var k := |t| + 1 + |r|;
    assert name == (t + "-" + r) + ext;
    if Unreserved(ext) {
      forall i | 0 <= i < |name|
        ensures UnreservedChar(name[i])
      {
        if i < |t| {
          assert name[i] == t[i];
        } else if i == |t| {
          assert name[i] == '-';
        } else if i < k {
          assert name[i] == r[i - |t| - 1];
        } else {
          assert name[i] == ext[i - k];
        }
      }
    }
    if Unreserved(name) {
      forall i | 0 <= i < |ext|
        ensures UnreservedChar(ext[i])
      {
        assert ext[i] == name[k + i];
      }
    }
  }

  // ----- reading a stored name back --------------------------------------

  /** The longest prefix of decimal digits. */
  function DigitPrefix(s: string): (d: string)
    ensures |d| <= |s| && d == s[..|d|]
    ensures forall i :: 0 <= i < |d| ==> IsDigit(d[i])
  {
    if s == [] || !IsDigit(s[0]) then [] else [s[0]] + DigitPrefix(s[1..])
  }

  lemma {:induction false} DigitPrefixOfDigits(d: string, rest: string)
    requires forall i :: 0 <= i < |d| ==> IsDigit(d[i])
    requires rest == [] || !IsDigit(rest[0])
    ensures DigitPrefix(d + rest) == d
    decreases |d|
  {
    if d != [] {
      assert (d + rest)[0] == d[0] && (d + rest)[1..] == d[1..] + rest;
      DigitPrefixOfDigits(d[1..], rest);
    } else {
      assert d + rest == rest;
    }
  }

  /** Splits a stored name into timestamp, random value and extension. */
  function ParseStoredName(s: string): Option<(nat, nat, string)> {
    var t := DigitPrefix(s);
    var rest := s[|t|..];
    if t == [] || rest == [] || rest[0] != '-' then None
    else
      var r := DigitPrefix(rest[1..]);
      if r == [] then None
      else Some((ParseDigits(t), ParseDigits(r), rest[1..][|r|..]))
  }

  /** A stored name determines the timestamp, random value and extension
      it was built from, so different inputs never share a file name. */
  lemma StoredNameRoundTrip(timestamp: nat, random: nat, ext: string)
    requires ext != [] && ext[0] == '.'
    ensures ParseStoredName(StoredName(timestamp, random, ext)) == Some((timestamp, random, ext))
  {
    ParseDigitsDashDigits(NatToString(timestamp), NatToString(random), ext);
    ParseNatToString(timestamp);
    ParseNatToString(random);
  }

  lemma ParseDigitsDashDigits(t: string, r: string, ext: string)
    requires t != [] && forall i :: 0 <= i < |t| ==> IsDigit(t[i])
    requires r != [] && forall i :: 0 <= i < |r| ==> IsDigit(r[i])
    requires ext != [] && ext[0] == '.'
    ensures ParseStoredName(t + "-" + r + ext) == Some((ParseDigits(t), ParseDigits(r), ext))
  {
    var tail := r + ext;
    var rest := ['-'] + tail;
    var s := t + rest;
    assert t + "-" + r + ext == s;
    assert rest[0] == '-' && rest[1..] == tail;
    DigitPrefixOfDigits(t, rest);
    assert s[|t|..] == rest;
    DigitPrefixOfDigits(r, ext);
    assert tail[|r|..] == ext;
  }

  lemma StoredNameInjective(t1: nat, r1: nat, e1: string, t2: nat, r2: nat, e2: string)
    requires e1 != [] && e1[0] == '.' && e2 != [] && e2[0] == '.'
    requires StoredName(t1, r1, e1) == StoredName(t2, r2, e2)
    ensures t1 == t2 && r1 == r2 && e1 == e2
  {
    StoredNameRoundTrip(t1, r1, e1);
    StoredNameRoundTrip(t2, r2, e2);
  }

  // ----- cleanup on item delete ------------------------------------------

  /** The file name the delete route derives from an item's `imageUrl`:
      the basename of the URL's pathname, or of the raw string when it is
      not an absolute URL. */
  function ImageFileName(p: Platform, imageUrl: string): (name: string)
    ensures BasenameShape(p) ==> '/' !in name
  {
    var pathname := match p.urlPathname(imageUrl)
      case Some(pn) => pn
      case None => imageUrl;
    p.basename(pathname)
  }

  /** The path the delete route tries to unlink for an image URL. */
  function ImagePath(p: Platform, uploadDir: string, imageUrl: string): string
    requires BasenameShape(p)
    requires ValidUploadDir(uploadDir)
  {
    JoinUpload(uploadDir, ImageFileName(p, imageUrl))
  }

  /** A path with every space percent-encoded as `%20`, as the WHATWG URL
      parser writes a space in a path. */
  function EncodeSpaces(s: string): (r: string)
    ensures ' ' !in r
    ensures '/' !in s ==> '/' !in r
    ensures s != [] && s[0] != ' ' ==> r != [] && r[0] == s[0]
    ensures ' ' in s ==> r != s
  {
    if s == [] then []
    else (if s[0] == ' ' then "%20" else [s[0]]) + EncodeSpaces(s[1..])
  }

  /** A stored name whose extension holds a space changes under the
      encoding, and stays a plain name: it still starts with a digit. */
  lemma EncodedStoredName(timestamp: nat, random: nat, ext: string, dir: string)
    requires '/' !in ext && ' ' in ext
    ensures var name := StoredName(timestamp, random, ext);
            && PlainName(EncodeSpaces(name))
            && dir + "/" + name != dir + "/" + EncodeSpaces(name)
  {
    var t := NatToString(timestamp);
    var name := StoredName(timestamp, random, ext);
    var encoded := EncodeSpaces(name);
    assert name[0] == t[0] && IsDigit(name[0]);
    assert ' ' in name by {
      var k :| 0 <= k < |ext| && ext[k] == ' ';
      assert name == (t + "-" + NatToString(random)) + ext;
      assert name[|name| - |ext| + k] == ' ';
    }
    assert (dir + "/" + name)[|dir| + 1..] == name;
    assert (dir + "/" + encoded)[|dir| + 1..] == encoded;
  }

  /** The best-effort removal of an image file. It joins the derived name
      onto the upload directory and unlinks the result only when that path
      starts with the directory and exists. `files` holds regular files;
      the directory itself (created at start-up) is not one of them, so the
      one other path that passes the prefix test, the directory reached
      through an empty or "." name, is never removed: unlinking it throws
      and the route swallows the error. At most one file goes: the derived
      path, and only when it lies directly inside the upload directory. */
  function CleanupImage(p: Platform, uploadDir: string, files: set<string>, imageUrl: string): (r: set<string>)
    requires BasenameShape(p)
    requires ValidUploadDir(uploadDir)
    requires uploadDir !in files
    ensures r <= files
    ensures forall f :: f in files - r ==> InsideDir(uploadDir, f)
    ensures var path := ImagePath(p, uploadDir, imageUrl);
            && (r != files ==> r == files - {path})
            && (InsideDir(uploadDir, path) && path in files ==> r == files - {path})
  {
    var path := JoinUpload(uploadDir, ImageFileName(p, imageUrl));
    if StartsWith(path, uploadDir) && path in files then files - {path} else files
  }
}

=== FILE: wrappers.dfy ===
/** The optional value used for nullable and possibly-absent fields. */
module Wrappers {

  datatype Option<+T> = None | Some(value: T) {

    /** The held value, or `default` when there is none (`x ?? default`). */
    function GetOr(default: T): T {
      match this
      case Some(v) => v
      case None => default
    }
  }
}
